=== FILE: README.md ===
# M4A transcriber: subtitle converter and session model

A Dafny model of the browser side of a small app. The app takes an M4A audio
file, sends it to a speech-transcription service, shows the speaker-labelled
transcript, and exports it as a SubRip (`.srt`) subtitle file. Two pieces of
logic are modelled, each in two revisions. The older revision lives at the
repository root. The current one lives under `packages/frontend/`.

- **The subtitle converter** (`srt.dfy`, module `Srt`).
  - It reads each segment's `MM:SS` or `HH:MM:SS` timestamp leniently; anything it cannot read counts as 0.
  - It infers each cue's end: the next start, or start+3, or start+5 for the last cue.
  - It formats times as `HH:MM:SS,000`.
  - It renders numbered cue blocks joined by blank lines.
  - `Revision` selects the current `utils/srt.ts` or the converter inlined in the older download handler.
  - The partner of the converter is a reader, `ReadSrt`. When no speaker and no transcript contains a line break, a generated document provably reads back as one cue per segment, in order, with the inferred interval and the `speaker: transcript` line. Multi-line text is accepted by the converter but is not read back (see Left out).
- **The upload widget** (`fileupload.dfy`, module `FileUpload`; `legacy_fileupload.dfy`, module `LegacyFileUpload`).
  - It accepts a file by MIME type or by the extension after the last dot.
  - It reports the file, or `null`, to the page.
  - It keeps an error or file-name line and a dragging flag.
  - It picks one of the drop-zone styles.
- **The session state machine** (`app.dfy`, module `App`; `legacy_app.dfy`, module `LegacyApp`).
  - Each page handler is a pure function on the page state: file select, reset, transcribe, and the download file name.
  - The asynchronous transcribe call is split into a start event, any number of progress events, and one completion event. The completion carries the service's result or what it threw.
  - `Ui` composes the page with its upload widget.
  - `Enabled` states which events the rendered page lets happen: the input is disabled while loading, and the reset and transcribe buttons are shown or enabled only in certain states.
  - An invariant is proved for every admissible run from the start state.

`strings.dfy` (module `Strings`) models the JavaScript built-ins the code relies on:
- `split`, `join`, `lastIndexOf`, `padStart`;
- number-to-decimal `toString`;
- ASCII `toLowerCase`.

`options.dfy` holds the `Option` type.

### Behaviours of the code that are easy to get wrong

- An invalid-type file sends the page to `initial`, not `error`. The widget shows its own error and reports `null` to the page (`InvalidChoiceGoesInitial`). A file that is both oversized and of the wrong type is also rejected by the widget first, so it goes to `initial` too.
- A timestamp of four or more pieces is read on its first two pieces by the current converter (`ParseExtraPiecesIgnored`, `FourPieceTimestamp`). The older converter reads it as 0.
- Reset is not available from every state: the page hides the reset button while loading, and `Enabled` follows the page. `UngatedResetBreaksInv` shows why: a reset during loading, followed by the service's answer, would produce `success` with no file.
- Choosing nothing (`null`) returns the current page to `initial` but keeps any earlier transcript and error. The older widget ignores an empty choice altogether.
- The bare file name `m4a` passes the extension test, because a name with no dot is its own extension (`BareNameAccepted`).
- On the older page, the loading message the transcribe handler sets before its first `await` is never displayed. The service it imports calls the progress callback in the same synchronous stretch (`services/geminiService.ts:35`, `:46`), so that first message replaces the handler's before the page renders. The model lets a `LegacyProgress` event follow the start at once. The current page imports a service of its own, which is not part of this model, so for `Preparing audio file...` the model only allows a `Progress` event to replace it at once.

## Model

| member | source | states |
|---|---|---|
| Strings.Dec | packages/frontend/utils/srt.ts:20-22 | `toString` of a whole number is a non-empty digit string, one digit long exactly below 10 |
| Strings.DecValue | packages/frontend/utils/srt.ts:20-22 | the decimal text of n denotes n |
| Strings.DecCanonical | packages/frontend/utils/srt.ts:20-22 | a digit string without a leading zero is the decimal text of its value |
| Strings.PadStart | packages/frontend/utils/srt.ts:20-23 | `padStart` yields exactly the width, or the text's own length when that is longer |
| Strings.PadStartShape | packages/frontend/utils/srt.ts:20-23 | `padStart` reaches the width, keeps the text as a suffix and fills only the front |
| Strings.PadZerosValue | packages/frontend/utils/srt.ts:20-22 | zero padding keeps a digit string's value |
| Strings.Split | packages/frontend/utils/srt.ts:5 | `split` on one character always yields at least one piece; with `JoinSplit`, `SplitJoin` and `SplitPiecesLackSeparator` the pieces are exactly the separator-free runs between separators |
| Strings.Join | packages/frontend/utils/srt.ts:50 | `join` of a non-empty list is at least as long as its first piece; `JoinSplit` and `SplitJoin` make it the inverse of `Split` |
| Strings.JoinSplit | packages/frontend/utils/srt.ts:5 | joining the pieces of a split restores the string |
| Strings.SplitJoin | packages/frontend/utils/srt.ts:50 | splitting a join of separator-free pieces gives the pieces back |
| Strings.SplitPiecesLackSeparator | packages/frontend/utils/srt.ts:5 | no piece of a split holds the separator |
| Strings.LastIndexOf | packages/frontend/App.tsx:93 | the result is -1 or the position of a matching character, and no match follows it |
| Strings.LastPartAfterLastIndex | packages/frontend/components/FileUpload.tsx:13 | the piece `pop()` takes off a split is the text after the last separator |
| Strings.AsciiLower | packages/frontend/components/FileUpload.tsx:13 | `toLowerCase` keeps the length |
| Strings.AsciiLowerChangesOnlyUpperCase | packages/frontend/components/FileUpload.tsx:13 | lower-casing changes a character exactly when it is an upper-case ASCII letter |
| Strings.AsciiLowerIsM4a | packages/frontend/components/FileUpload.tsx:13 | exactly the four mixed-case spellings of `m4a` lower-case to `m4a` |
| Srt.ParseTimestamp | packages/frontend/utils/srt.ts:4-17 | `parseMMSS`: a non-zero reading needs at least two pieces, all numeric; the value for each shape is given by the `Parse…` lemmas below |
| Srt.ParseTimestampLegacy | App.tsx:56-60 | the older `parseMMSS`: a non-zero reading needs exactly two pieces |
| Srt.ParseMinutesSeconds | packages/frontend/utils/srt.ts:12-15 | in both revisions, `MM:SS` with numeric pieces is minutes*60+seconds |
| Srt.ParseHoursMinutesSeconds | packages/frontend/utils/srt.ts:8-11 | three numeric pieces are hours*3600+minutes*60+seconds in the current revision and 0 in the older one |
| Srt.ParseExtraPiecesIgnored | packages/frontend/utils/srt.ts:6-15 | four or more numeric pieces are read on the first two in the current revision and as 0 in the older one |
| Srt.ParseWithoutColon | packages/frontend/utils/srt.ts:6 | a timestamp of one piece is 0 in both revisions |
| Srt.ParseNonNumericPiece | packages/frontend/utils/srt.ts:5-6 | any NaN piece makes the timestamp 0 in both revisions |
| Srt.ParseRevisionsAgreeOnTwoPieces | App.tsx:56-60 | on two-piece timestamps the older parser agrees with the current one |
| Srt.EndTime | packages/frontend/utils/srt.ts:33-43 | a cue ends at the next start if that is later, else 3 s after its start; the last cue ends 5 s after its start; so a cue always ends after it starts |
| Srt.CuesDoNotOverlap | packages/frontend/utils/srt.ts:33-39 | with strictly increasing starts, every cue ends no later than any later cue starts |
| Srt.FallbackMarksNonIncrease | packages/frontend/utils/srt.ts:37-39 | a non-final cue that stops short of the next start marks a non-increasing timestamp and lasts 3 s |
| Srt.FormatSrtTime | packages/frontend/utils/srt.ts:19-25 | `formatSrtTime` on whole seconds renders exactly what the older formatter renders, so its computed millisecond field is `000` |
| Srt.FormatSrtTimeLegacy | App.tsx:62-67 | the older `formatSrtTime` renders at least twelve characters with the comma before the three millisecond digits |
| Srt.ZeroMilliseconds | packages/frontend/utils/srt.ts:23 | the millisecond field of a whole number of seconds is `000` |
| Srt.Pad2Value | packages/frontend/utils/srt.ts:20-22 | a two-digit padded field is a digit string of at least two characters denoting its number, exactly two below 100 |
| Srt.ClockArithmetic | packages/frontend/utils/srt.ts:20-22 | the minute and second fields are below 60 and the three fields recompose the total |
| Srt.FormatIsClockAndMilliseconds | packages/frontend/utils/srt.ts:19-25 | both revisions render a time as its `HH:MM:SS` clock followed by `,000` |
| Srt.FormatWidth | packages/frontend/utils/srt.ts:19-25 | a time below 100 hours renders in exactly twelve characters |
| Srt.Cues | packages/frontend/utils/srt.ts:30-47 | one cue per segment, numbered from 1 in input order, each ending after it starts |
| Srt.RenderCue | packages/frontend/utils/srt.ts:45-49 | one block: number, timing line, `speaker: transcript`, each ending in a line break; its lines are given by `SplitRenderedCue` |
| Srt.Blocks | packages/frontend/utils/srt.ts:45-49 | `transcript.map(...)` gives exactly one block per cue |
| Srt.RenderCues | packages/frontend/utils/srt.ts:50 | the blocks joined by line breaks; the document is empty exactly when there are no cues |
| Srt.GenerateSrtContent | packages/frontend/utils/srt.ts:27-28 | the document is empty exactly when the transcript is |
| Srt.ClockOfReadsBack | packages/frontend/utils/srt.ts:20-24 | a rendered clock reads back as its hours, minutes and seconds |
| Srt.ClockReadsBack | packages/frontend/utils/srt.ts:20-24 | the clock of a total reads back as that total and holds only digits and colons |
| Srt.ReadFormattedTime | packages/frontend/utils/srt.ts:19-25 | a rendered time reads back as its total and holds no space or line break |
| Srt.TimestampParserReadsFormattedClock | packages/frontend/utils/srt.ts:4-25 | the app's own timestamp parser reads the clock part of a rendered time as that time |
| Srt.TimingLineChars | packages/frontend/utils/srt.ts:49 | the timing line is start, `-->`, end separated by single spaces, on one line |
| Srt.SplitRenderedCue | packages/frontend/utils/srt.ts:49 | a rendered block splits into its number, timing line, text line and a final empty line |
| Srt.SplitRenderedCues | packages/frontend/utils/srt.ts:30-50 | the lines of a rendered document are the blocks' lines in order |
| Srt.ReadRenderedCue | packages/frontend/utils/srt.ts:49 | the four lines of a block read back as its cue |
| Srt.ReadAllCueLines | packages/frontend/utils/srt.ts:30-50 | the lines of all blocks read back as all cues in order |
| Srt.ReadRenderedCues | packages/frontend/utils/srt.ts:30-50 | round trip: a rendered document of single-line cues reads back as those cues |
| Srt.GeneratedDocumentReadsBack | packages/frontend/utils/srt.ts:27-51 | when no speaker and no transcript contains a line break, the converter's output reads back as exactly one cue per segment, in order, with number, inferred interval and `speaker: transcript` line |
| Srt.BlocksRevisionsAgree | App.tsx:62-67 | on whole seconds the older and current converters render every block identically |
| Srt.RevisionsAgreeOnMinutesSeconds | App.tsx:56-88 | when every timestamp has two pieces, both revisions produce the same document |
| Srt.Pad2OneDigit | packages/frontend/utils/srt.ts:20-22 | a one-digit number pads to `0d` |
| Srt.Pad2TwoDigits | packages/frontend/utils/srt.ts:20-22 | a two-digit number is left as it is |
| Srt.SampleStarts | services/geminiService.ts:5-21 | the sample transcript's timestamps read as 2, 6 and 12 seconds |
| Srt.FormatUnderAMinute | packages/frontend/utils/srt.ts:19-25 | a time under a minute renders as `00:00:SS,000` |
| Srt.SmallTimes | packages/frontend/utils/srt.ts:19-25 | 2, 6, 12 and 17 seconds render as `00:00:02,000`, `00:00:06,000`, `00:00:12,000` and `00:00:17,000` |
| Srt.CuesOfSampleStarts | packages/frontend/utils/srt.ts:33-43 | three segments starting at 2, 6 and 12 seconds give cues 2-6, 6-12 and 12-17 |
| Srt.SampleTranscriptCues | packages/frontend/utils/srt.ts:30-43 | the sample transcript gives three cues spanning 2-6, 6-12 and 12-17 seconds |
| Srt.SampleTimingLines | packages/frontend/utils/srt.ts:45-49 | the sample transcript's three cues have the timing lines `00:00:02,000 --> 00:00:06,000`, `00:00:06,000 --> 00:00:12,000` and `00:00:12,000 --> 00:00:17,000` |
| Srt.FourPieceTimestamp | packages/frontend/utils/srt.ts:12-15 | `01:02:03:04` reads as 62 seconds |
| Srt.HoursTimestamp | App.tsx:56-60 | `01:02:03` is 3723 seconds to the current converter and 0 to the older one |
| Srt.NonNumericTimestamp | packages/frontend/utils/srt.ts:6 | `1:xx` is 0 to both converters |
| FileUpload.FileExtension | packages/frontend/components/FileUpload.tsx:13 | `name.split('.').pop()?.toLowerCase()`; `ExtensionIsM4aIff` says when it is `m4a` |
| FileUpload.IsValidFile | packages/frontend/components/FileUpload.tsx:12-15 | a file is accepted on a listed MIME type or an `m4a` extension; `ValidFileIff` restates this without splitting |
| FileUpload.ExtensionIsM4aIff | packages/frontend/components/FileUpload.tsx:13 | the extension test passes exactly for names ending in `.m4a` in any case, and for the bare name `m4a` |
| FileUpload.ValidFileIff | packages/frontend/components/FileUpload.tsx:10-15 | a file is accepted iff its MIME type is listed or its name ends in `.m4a` (or is `m4a`) |
| FileUpload.UpperCaseExtensionAccepted | packages/frontend/components/FileUpload.tsx:12-15 | any name ending in `.M4A` is accepted whatever precedes it, other dots included, and whatever its MIME type |
| FileUpload.BareNameAccepted | packages/frontend/components/FileUpload.tsx:13 | a file named just `m4a` is accepted |
| FileUpload.InnerExtensionRejected | packages/frontend/components/FileUpload.tsx:12-15 | with an unlisted MIME type, any name ending in `.m4a.txt` is rejected: an inner `.m4a` does not count |
| FileUpload.Validate | packages/frontend/components/FileUpload.tsx:30-40 | the page is always called; it gets the file iff the file is accepted; an error is recorded iff a file was given and rejected; the drag flag is untouched |
| FileUpload.HandleEvent | packages/frontend/components/FileUpload.tsx:37-77 | the page is called on every change and on every drop while enabled, with `null` when no file came; leave and drop stop dragging; enter starts it only when enabled; a disabled enter and any over change nothing |
| FileUpload.ForwardedFilesAreValid | packages/frontend/components/FileUpload.tsx:30-40 | every file the widget hands to the page is accepted |
| FileUpload.DisabledDragIsInert | packages/frontend/components/FileUpload.tsx:46-67 | while disabled no drag event calls the page, changes the error or starts a drag |
| FileUpload.DragEnterLeave | packages/frontend/components/FileUpload.tsx:46-56 | enter then leave restores not-dragging and changes nothing else |
| FileUpload.DropIsChoice | packages/frontend/components/FileUpload.tsx:63-70 | an enabled drop reports the same file as choosing it and stops dragging |
| FileUpload.ContainerClasses | packages/frontend/components/FileUpload.tsx:85-90 | disabled beats the error, which beats dragging, which beats idle |
| FileUpload.ChoiceStyle | packages/frontend/components/FileUpload.tsx:85-90 | after an enabled choice the error style shows iff the file was rejected |
| LegacyFileUpload.LegacyValidate | components/FileUpload.tsx:20-28 | an accepted file is named and forwarded, a rejected one shows the notice and forwards `null`, and an empty choice changes nothing and calls nothing |
| LegacyFileUpload.LegacyHandleEvent | components/FileUpload.tsx:30-63 | unlike the current widget, the page is called only when a file actually came, by a change or by a drop while enabled; an empty change or drop calls nothing; the drag flags behave as in the current widget |
| LegacyFileUpload.RevisionsForwardTheSameFile | components/FileUpload.tsx:20-28 | both widgets agree on the drag flag and, whenever the older one calls the page, on the file it reports |
| LegacyFileUpload.LegacyContainerClasses | components/FileUpload.tsx:74 | disabled beats dragging, which beats idle; there is no error style |
| LegacyFileUpload.StylesAgreeWithoutError | components/FileUpload.tsx:74 | with no error showing, both widgets pick the same style |
| App.HandleFileSelect | packages/frontend/App.tsx:24-40 | an oversized file gives `error` with the size message, keeping the transcript; an in-limit file gives `fileSelected` with cleared transcript and error; `null` gives `initial`, keeping transcript and error |
| App.SizeLimit | packages/frontend/App.tsx:14-15 | the limit is 524288000 bytes and the message names 500MB |
| App.HandleReset | packages/frontend/App.tsx:42-48 | from any state: `initial`, no file, transcript, error or loading message |
| App.TranscribeStart | packages/frontend/App.tsx:50-60 | without a file: `error` with the select-a-file message; with one: `loading` with transcript and error cleared and the message `Preparing audio file...`; a `Progress` event may replace it at once, and whether one does depends on a service that is not modelled |
| App.TranscribeProgress | packages/frontend/App.tsx:63 | a progress report replaces the loading message and nothing else |
| App.TranscribeComplete | packages/frontend/App.tsx:62-78 | `success` iff a non-empty transcript came back, kept as is; otherwise `error` with the no-content, thrown or unknown message; the loading message is cleared either way |
| App.ShowResetButton | packages/frontend/App.tsx:104 | the reset button is shown in `fileSelected`, `success` and `error`; `ResetOfferedOnlyWithSomethingToClear` ties it to the page state |
| App.SrtContent | packages/frontend/App.tsx:81-84 | the download text is non-empty iff there is a non-empty transcript |
| App.SrtFileName | packages/frontend/App.tsx:93 | the download name always ends in `.srt`, and the part before it is a prefix of the file name, non-empty when the name is |
| App.SrtFileNameReplacesExtension | packages/frontend/App.tsx:93 | `base.ext` with a non-empty base and a dot-free extension downloads as `base.srt`, even when the base has dots (so `meeting.m4a` gives `meeting.srt` and `a.b.m4a` gives `a.b.srt`) |
| App.SrtFileNameWithoutDot | packages/frontend/App.tsx:93 | a name without a dot gets `.srt` appended |
| App.SrtFileNameLeadingDot | packages/frontend/App.tsx:93 | `.ext` downloads as `.ext.srt`, since the empty prefix falls back to the name |
| App.DownloadSrt | packages/frontend/App.tsx:86-93 | a download happens iff there is text and a file, with that text under the file's `.srt` name |
| App.Enabled | packages/frontend/App.tsx:112-140 | the events the rendered page allows: the file input is disabled while loading, reset needs its button, transcribe needs `fileSelected`, and the service reports only while loading |
| App.Step | packages/frontend/App.tsx:128-137 | one event on the page: a widget event runs the widget with `disabled` set while loading and hands its call to `handleFileSelect`; reset, transcribe and the service's messages run their handlers; `StepPreservesInv` and the run lemmas are stated on it |
| App.InitialInv | packages/frontend/App.tsx:18-22 | the start state satisfies the invariant |
| App.UploadPreservesInv | packages/frontend/App.tsx:24-40 | widget events keep the invariant |
| App.StepPreservesInv | packages/frontend/App.tsx:24-79 | every enabled event keeps the invariant |
| App.RunPreservesInv | packages/frontend/App.tsx:24-79 | every admissible run keeps the invariant: `success` has a file and a non-empty transcript; `fileSelected` and `loading` have a file; `initial` has none; a kept file is accepted and in limit |
| App.TranscribeButtonStartsLoading | packages/frontend/App.tsx:130-137 | on a reachable page the transcribe button always enters `loading` with the file kept and no error, so the handler's no-file branch cannot be reached from the page |
| App.ResetOfferedOnlyWithSomethingToClear | packages/frontend/App.tsx:104-121 | reset is never offered while loading, and on a reachable page it is offered only when there is a file or an error to clear |
| App.SuccessOffersDownload | packages/frontend/App.tsx:81-104 | in every reachable `success` state the download is available |
| App.UploadInertWhileLoading | packages/frontend/App.tsx:128 | while loading no widget event reaches the page |
| App.InvalidChoiceGoesInitial | packages/frontend/App.tsx:36-39 | choosing a file of the wrong type, of any size, leaves the page in `initial` without a file and the widget showing the type error |
| App.OversizedChoiceIsError | packages/frontend/App.tsx:26-30 | an accepted file over the limit gives `error` with the size message and no file |
| App.HappyPath | packages/frontend/App.tsx:50-93 | choose, transcribe and receive segments: `success`, and the download is the converter's document under the file's `.srt` name |
| App.UngatedResetBreaksInv | packages/frontend/App.tsx:104 | a reset during loading, which the page hides, followed by the answer would give `success` without a file |
| LegacyApp.LegacyHandleFileSelect | App.tsx:18-22 | the argument becomes the file with no size check, and transcript and error are cleared |
| LegacyApp.LegacyTranscribeStart | App.tsx:24-36 | without a file only the error is set; with one, loading starts, transcript and error are cleared, and the handler's two messages are applied in order, ending on `Sending to AI for transcription...` until the service's first progress message replaces it |
| LegacyApp.LegacyTranscribeProgress | App.tsx:37 | a progress report replaces the loading message and nothing else |
| LegacyApp.LegacyTranscribeComplete | App.tsx:39-50 | a non-empty transcript is kept, otherwise the no-content, thrown or unknown message is set; loading ends with an empty message |
| LegacyApp.LegacyDownloadSrt | App.tsx:53-94 | a download happens iff there is a transcript and a file, with the older converter's document under the `.srt` name |
| LegacyApp.TranscribeButtonDisabled | App.tsx:120 | the transcribe button is disabled without a file or while loading |
| LegacyApp.ResultShown | App.tsx:141 | the result panel shows when there is a transcript and nothing is loading |
| LegacyApp.LegacyEnabled | App.tsx:115-120 | the events the older page allows: the file input is disabled while loading, transcribe needs a file and no loading, and the service reports only while loading; `LegacyTranscribeButtonStartsLoading` ties it to the state machine |
| LegacyApp.LegacyStep | App.tsx:115-119 | one event on the older page: a widget event runs the older widget with `disabled={isLoading}` and hands its call to `handleFileSelect`; transcribe and the service's messages run their handlers; `LegacyStepPreservesInv` and the run lemmas are stated on it |
| LegacyApp.InitialLegacyInv | App.tsx:12-16 | the start state satisfies the invariant |
| LegacyApp.LegacyUploadPreservesInv | App.tsx:18-22 | widget events keep the invariant |
| LegacyApp.LegacyStepPreservesInv | App.tsx:18-51 | every enabled event keeps the invariant |
| LegacyApp.LegacyRunPreservesInv | App.tsx:18-51 | every admissible run keeps the invariant: loading has a file and no result; a transcript is non-empty and has a file; the name under the drop zone is the kept file's |
| LegacyApp.LegacyTranscribeButtonStartsLoading | App.tsx:115-121 | the enabled transcribe button always starts loading with no error, so the no-file branch cannot be reached from the page; on a reachable page the button is enabled whenever a result is shown |
| LegacyApp.LegacyResultOffersDownload | App.tsx:141-149 | whenever the result panel shows, its download is available |
| LegacyApp.LegacyKeepsOversizedFile | App.tsx:18-22 | the older page keeps an accepted file over 500 MB, which the current page refuses |
| LegacyApp.LegacyIgnoresEmptyChoice | components/FileUpload.tsx:20-28 | choosing nothing leaves the older page and widget unchanged |
| LegacyApp.LegacyRejectedChoice | components/FileUpload.tsx:24-26 | a rejected file clears the kept file, transcript and error and shows the notice |
| LegacyApp.LegacyDownloadMatchesCurrent | App.tsx:56-88 | with two-piece timestamps the older download equals the current one |

## Left out

- Fractional seconds: times are whole seconds, so the float arithmetic of `Math.floor`, `%` and `Math.round((t % 1) * 1000)` is not modelled. The millisecond field is always `000`.
- `Number()` quirks: a timestamp piece counts as a number only when it is a string of ASCII digits, and the empty string counts as 0 as in JavaScript. Whitespace, signs, decimals, exponents, hexadecimal, precision loss above 2^53 and exponent notation in `toString` are left out.
- `toLowerCase` is modelled on ASCII letters only.
- The transcription service (`services/geminiService.ts`), its mock switch, timers and error rewriting are left out. Its results arrive as the `Complete` event's outcome. Only the sample transcript is used, as a worked example.
- The current page's own service (`packages/frontend/services/geminiService.ts`, imported at packages/frontend/App.tsx:7) is not part of this model. Its progress messages arrive as `Progress` events at any time while loading, so the model does not say when, or whether, `Preparing audio file...` is replaced.
- The serverless handlers under `api/` (upload, signed URLs, calls to the AI service, health checks) are network I/O and are not part of this model.
- Rendering: JSX, Blob and object-URL download, CSS beyond the choice of drop-zone style, and the Header, Footer, TranscriptDisplay and Spinner components are left out.
- React scheduling: each handler is one atomic step, and set-state calls made in one synchronous stretch are applied together. Async interleavings other than start / progress / complete are not modelled.
- The effect that clears the file input's value when the page's file becomes `null` is left out. It has no effect on the state modelled here.
- The drop handler's copy of the dropped file into the file input is left out. It is DOM plumbing.
- Only the first file of a chosen or dropped list is looked at, as in the code. The list itself is not modelled.
- Srt.GeneratedDocumentReadsBack: is stated only for speakers and transcripts without line breaks. The converter copies a multi-line text into its block unchanged. The block then has more lines than the four-line layout `ReadSrt` expects, so such a document does not read back as its own cues.

=== FILE: app.dfy ===
/** The current page: a five-state session (`initial`, `fileSelected`,
    `loading`, `success`, `error`) driven by the upload widget, the reset
    and transcribe buttons, and the transcription service's progress and
    outcome. The service itself is not modelled: what it reports arrives as
    events. */
module App {
  import opened Options
  import opened Strings
  import opened Srt
  import opened FileUpload

  datatype Status = Initial | FileSelected | Loading | Success | Error

  const MaxFileSizeMB: nat := 500
  const MaxFileSizeBytes: nat := MaxFileSizeMB * 1024 * 1024

  const TooLargeMessage: string :=
    "File is too large. The maximum allowed size is " + Dec(MaxFileSizeMB) + "MB."
  const NoFileMessage: string := "Please select an M4A file first."
  const PreparingMessage: string := "Preparing audio file..."
  const NoContentMessage: string :=
    "Transcription failed or returned no content. The audio might be silent or unclear."
  const UnknownErrorMessage: string := "An unknown error occurred during transcription."

  /** The page's five pieces of state. */
  datatype Session = Session(
    file: Option<File>,
    status: Status,
    loadingMessage: string,
    transcript: Option<seq<Segment>>,
    error: Option<string>)

  const InitialSession := Session(None, Initial, "", None, None)

  /** What the service call ended with: a value (possibly `null`), an
      `Error` with its message, or something thrown that is not an `Error`. */
  datatype Thrown = ErrorInstance(message: string) | NonError
  datatype Outcome = Returned(result: Option<seq<Segment>>) | Threw(thrown: Thrown)

  /** `handleFileSelect`: a file over the size limit is refused with an
      error, any other file is selected afresh, and `null` returns the page
      to `initial` (keeping any earlier transcript and error). */
  function HandleFileSelect(s: Session, selected: Option<File>): (r: Session)
    ensures r.loadingMessage == s.loadingMessage
    ensures r.file.Some? <==> selected.Some? && selected.value.size <= MaxFileSizeBytes
    ensures r.file.Some? ==> r.file == selected && r.status == FileSelected
                             && r.transcript.None? && r.error.None?
    ensures selected.Some? && r.file.None? ==>
              r.status == Error && r.error == Some(TooLargeMessage) && r.transcript == s.transcript
    ensures selected.None? ==> r.status == Initial && r.transcript == s.transcript && r.error == s.error
  {
    match selected
    case Some(f) =>
      if f.size > MaxFileSizeBytes then
        s.(error := Some(TooLargeMessage), status := Error, file := None)
      else
        s.(file := Some(f), status := FileSelected, transcript := None, error := None)
    case None => s.(file := None, status := Initial)
  }

  lemma SizeLimit()
    ensures MaxFileSizeBytes == 524288000
    ensures TooLargeMessage == "File is too large. The maximum allowed size is 500MB."
  {
    assert Dec(500) == "500" by {
      assert Dec(5) == "5";
      assert Dec(50) == "50";
    }
  }

  /** `handleReset`: whatever the state, the page is as it started. */
  function HandleReset(s: Session): (r: Session)
    ensures r.file.None? && r.status == Initial && r.transcript.None? && r.error.None?
    ensures r.loadingMessage == ""
  {
    InitialSession
  }

  /** The synchronous part of `handleTranscribe`: without a file it only
      reports the error; with one it enters `loading` and clears the
      previous result. A `Progress` event may replace the message set here at
      once; whether one does depends on the service, which is not modelled. */
  function TranscribeStart(s: Session): (r: Session)
    ensures r.file == s.file
    ensures s.file.None? ==> r.status == Error && r.error == Some(NoFileMessage)
                             && r.transcript == s.transcript && r.loadingMessage == s.loadingMessage
    ensures s.file.Some? ==> r.status == Loading && r.loadingMessage == PreparingMessage
                             && r.transcript.None? && r.error.None?
  {
    if s.file.None? then s.(error := Some(NoFileMessage), status := Error)
    else s.(status := Loading, loadingMessage := PreparingMessage, error := None, transcript := None)
  }

  /** The progress callback the service is given. */
  function TranscribeProgress(s: Session, message: string): (r: Session)
    ensures r.loadingMessage == message
    ensures r.(loadingMessage := s.loadingMessage) == s
  {
    s.(loadingMessage := message)
  }

  /** The rest of `handleTranscribe`, once the service has answered: a
      non-empty transcript is success, anything else an error with a
      message; either way the loading message is cleared. */
  function TranscribeComplete(s: Session, outcome: Outcome): (r: Session)
    ensures r.file == s.file && r.loadingMessage == ""
    ensures r.status == Success <==> outcome.Returned? && outcome.result.Some? && |outcome.result.value| > 0
    ensures r.status == Success ==> r.transcript == outcome.result && r.error == s.error
    ensures r.status != Success ==> r.status == Error && r.transcript == s.transcript && r.error.Some?
    ensures outcome.Returned? && r.status == Error ==> r.error == Some(NoContentMessage)
    ensures outcome.Threw? && outcome.thrown.ErrorInstance? ==> r.error == Some(outcome.thrown.message)
    ensures outcome == Threw(NonError) ==> r.error == Some(UnknownErrorMessage)
  {
    var settled :=
      match outcome
      case Returned(Some(segs)) =>
        if |segs| > 0 then s.(transcript := Some(segs), status := Success)
        else s.(error := Some(NoContentMessage), status := Error)
      case Returned(None) => s.(error := Some(NoContentMessage), status := Error)
      case Threw(ErrorInstance(m)) => s.(error := Some(m), status := Error)
      case Threw(NonError) => s.(error := Some(UnknownErrorMessage), status := Error);
    settled.(loadingMessage := "")
  }

  predicate ShowResetButton(status: Status) {
    status == Success || status == Error || status == FileSelected
  }

  /** The document offered for download: empty while there is no transcript. */
  function SrtContent(s: Session): (doc: string)
    ensures doc != "" <==> s.transcript.Some? && |s.transcript.value| > 0
  {
    if s.transcript.None? then "" else GenerateSrtContent(Current, s.transcript.value)
  }

  /* ---------- the download's file name ---------- */

  /** `name.substring(0, name.lastIndexOf('.'))`; a negative end reads as 0. */
  function BeforeLastDot(name: string): string {
    var k := LastIndexOf(name, '.');
    if k < 0 then "" else name[..k]
  }

  /** `(before the last dot || name) + '.srt'`. */
  function SrtFileName(name: string): (r: string)
    ensures |r| >= 4 && r[|r| - 4..] == ".srt"
    ensures r[..|r| - 4] <= name
    ensures name != "" ==> r[..|r| - 4] != ""
  {
    var base := BeforeLastDot(name);
    (if base == "" then name else base) + ".srt"
  }

  /** The extension after the last dot is replaced by `.srt`. */
  lemma SrtFileNameReplacesExtension(base: string, ext: string)
    requires '.' !in ext && base != ""
    ensures SrtFileName(base + "." + ext) == base + ".srt"
  {
    var name := base + "." + ext;
    assert name[|base|] == '.';
    forall j | |base| < j < |name|
      ensures name[j] != '.'
    {
      assert name[j] == ext[j - |base| - 1];
    }
    assert LastIndexOf(name, '.') == |base|;
    assert name[..|base|] == base;
  }

  /** A name without a dot keeps its whole text. */
  lemma SrtFileNameWithoutDot(name: string)
    requires '.' !in name
    ensures SrtFileName(name) == name + ".srt"
  {
    assert LastIndexOf(name, '.') == -1;
  }

  /** A name whose only dot is its first character is kept whole too:
      `.m4a` becomes `.m4a.srt`. */
  lemma SrtFileNameLeadingDot(ext: string)
    requires '.' !in ext
    ensures SrtFileName("." + ext) == "." + ext + ".srt"
  {
    var name := "." + ext;
    forall j | 0 < j < |name|
      ensures name[j] != '.'
    {
      assert name[j] == ext[j - 1];
    }
    assert name[0] == '.';
    assert LastIndexOf(name, '.') == 0;
  }

  datatype Download = Download(fileName: string, content: string)

  /** `handleDownloadSrt`: nothing without a document or a file. */
  function DownloadSrt(s: Session): (d: Option<Download>)
    ensures d.Some? <==> SrtContent(s) != "" && s.file.Some?
    ensures d.Some? ==> d.value.content == SrtContent(s) && d.value.fileName == SrtFileName(s.file.value.name)
  {
    if SrtContent(s) == "" || s.file.None? then None
    else Some(Download(SrtFileName(s.file.value.name), SrtContent(s)))
  }

  /* ---------- the page and the widget together ---------- */

  datatype Ui = Ui(session: Session, upload: UploadState)

  const InitialUi := Ui(InitialSession, InitialUpload)

  /** Everything that can happen to the page: a widget event, a button
      press, or the service reporting progress or finishing. */
  datatype UiEvent =
    | Upload(event: UploadEvent)
    | Reset
    | Transcribe
    | Progress(message: string)
    | Complete(outcome: Outcome)

  /** The widget is disabled while loading. */
  predicate Disabled(s: Session) {
    s.status == Loading
  }

  /** What the rendered page lets happen: the file input is disabled while
      loading, the reset button is shown only in `fileSelected`, `success`
      and `error`, the transcribe button only in `fileSelected`, and the
      service reports only while a request is outstanding. The drag
      handlers are always attached and test `disabled` themselves. */
  predicate Enabled(u: Ui, e: UiEvent) {
    match e
    case Upload(Change(_)) => !Disabled(u.session)
    case Upload(_) => true
    case Reset => ShowResetButton(u.session.status)
    case Transcribe => u.session.status == FileSelected
    case Progress(_) => u.session.status == Loading
    case Complete(_) => u.session.status == Loading
  }

  /** `onFileSelect` delivered to the page, when the widget calls it. */
  function Deliver(s: Session, call: Callback): Session {
    match call
    case NoCall => s
    case Select(f) => HandleFileSelect(s, f)
  }

  function Step(u: Ui, e: UiEvent): Ui {
    match e
    case Upload(ev) =>
      var r := HandleEvent(u.upload, Disabled(u.session), ev);
      Ui(Deliver(u.session, r.call), r.state)
    case Reset => u.(session := HandleReset(u.session))
    case Transcribe => u.(session := TranscribeStart(u.session))
    case Progress(m) => u.(session := TranscribeProgress(u.session, m))
    case Complete(o) => u.(session := TranscribeComplete(u.session, o))
  }

  function Run(u: Ui, es: seq<UiEvent>): Ui
    decreases |es|
  {
    if es == [] then u else Run(Step(u, es[0]), es[1..])
  }

  predicate Admissible(u: Ui, es: seq<UiEvent>)
    decreases |es|
  {
    es == [] || (Enabled(u, es[0]) && Admissible(Step(u, es[0]), es[1..]))
  }

  /** What holds of the page in every state it can reach. */
  predicate Inv(u: Ui) {
    var s := u.session;
    (s.status == Initial ==> s.file.None?)
    && (s.status == FileSelected || s.status == Loading ==>
          s.file.Some? && s.transcript.None? && s.error.None?)
    && (s.status == Success ==> s.file.Some? && s.transcript.Some? && s.error.None?)
    && (s.status == Error ==> s.error.Some?)
    && (s.status != Loading ==> s.loadingMessage == "")
    && (s.transcript.Some? ==> |s.transcript.value| > 0)
    && (s.file.Some? ==> IsValidFile(s.file.value) && s.file.value.size <= MaxFileSizeBytes)
    && (u.upload.dragError.Some? ==> s.status == Initial)
  }

  lemma InitialInv()
    ensures Inv(InitialUi)
  {
  }

  /** A widget event keeps the invariant: only accepted files arrive, and a
      rejection sends the page to `initial`. */
  lemma UploadPreservesInv(u: Ui, ev: UploadEvent)
    requires Inv(u) && Enabled(u, Upload(ev))
    ensures Inv(Step(u, Upload(ev)))
  {
    var r := HandleEvent(u.upload, Disabled(u.session), ev);
    ForwardedFilesAreValid(u.upload, Disabled(u.session), ev);
    if r.call.Select? {
      assert !Disabled(u.session);
      assert r.state.dragError.Some? ==> r.call.file.None?;
    }
  }

  lemma StepPreservesInv(u: Ui, e: UiEvent)
    requires Inv(u) && Enabled(u, e)
    ensures Inv(Step(u, e))
  {
    if e.Upload? {
      UploadPreservesInv(u, e.event);
    }
  }

  lemma {:induction false} RunPreservesInv(u: Ui, es: seq<UiEvent>)
    requires Inv(u) && Admissible(u, es)
    ensures Inv(Run(u, es))
    decreases |es|
  {
    if es != [] {
      StepPreservesInv(u, es[0]);
      RunPreservesInv(Step(u, es[0]), es[1..]);
    }
  }

  /** On a reachable page the transcribe button always starts a request:
      the handler's no-file branch cannot be reached from the page. */
  lemma TranscribeButtonStartsLoading(u: Ui)
    requires Inv(u) && Enabled(u, Transcribe)
    ensures Step(u, Transcribe).session.status == Loading
    ensures Step(u, Transcribe).session.error.None?
    ensures Step(u, Transcribe).session.file == u.session.file
  {
  }

  /** The reset button is never offered while a request is outstanding, and
      on a reachable page it is offered only when there is a file or an
      error to clear. */
  lemma ResetOfferedOnlyWithSomethingToClear(u: Ui)
    requires Inv(u)
    ensures u.session.status == Loading ==> !Enabled(u, Reset)
    ensures Enabled(u, Reset) ==> u.session.file.Some? || u.session.error.Some?
  {
  }

  /** In every reachable `success` state the download is offered, named
      after the chosen file. */
  lemma SuccessOffersDownload(es: seq<UiEvent>)
    requires Admissible(InitialUi, es)
    ensures Inv(Run(InitialUi, es))
    ensures Run(InitialUi, es).session.status == Success ==>
              DownloadSrt(Run(InitialUi, es).session).Some?
  {
    InitialInv();
    RunPreservesInv(InitialUi, es);
  }

  /** While a request is outstanding no widget event reaches the page. */
  lemma UploadInertWhileLoading(u: Ui, ev: UploadEvent)
    requires u.session.status == Loading && Enabled(u, Upload(ev))
    ensures Step(u, Upload(ev)).session == u.session
  {
  }

  /** Choosing a file of the wrong type leaves the page in `initial` with the
      widget showing its error, whatever the file's size. */
  lemma InvalidChoiceGoesInitial(u: Ui, f: File)
    requires Enabled(u, Upload(Change(Some(f)))) && !IsValidFile(f)
    ensures Step(u, Upload(Change(Some(f)))).session.status == Initial
    ensures Step(u, Upload(Change(Some(f)))).session.file.None?
    ensures Step(u, Upload(Change(Some(f)))).upload.dragError == Some(InvalidTypeMessage)
  {
  }

  /** An accepted file over the limit is an error and is not kept. */
  lemma OversizedChoiceIsError(u: Ui, f: File)
    requires Enabled(u, Upload(Change(Some(f)))) && IsValidFile(f) && f.size > MaxFileSizeBytes
    ensures Step(u, Upload(Change(Some(f)))).session.status == Error
    ensures Step(u, Upload(Change(Some(f)))).session.error == Some(TooLargeMessage)
    ensures Step(u, Upload(Change(Some(f)))).session.file.None?
  {
  }

  /** The whole happy path: choose a file, transcribe, receive segments;
      the download is the converter's document under the file's name. */
  lemma HappyPath(u: Ui, f: File, segs: seq<Segment>)
    requires Inv(u) && u.session.status != Loading
    requires IsValidFile(f) && f.size <= MaxFileSizeBytes && |segs| > 0
    ensures Admissible(u, [Upload(Change(Some(f))), Transcribe, Complete(Returned(Some(segs)))])
    ensures Run(u, [Upload(Change(Some(f))), Transcribe, Complete(Returned(Some(segs)))]).session.status == Success
    ensures DownloadSrt(Run(u, [Upload(Change(Some(f))), Transcribe, Complete(Returned(Some(segs)))]).session)
            == Some(Download(SrtFileName(f.name), GenerateSrtContent(Current, segs)))
  {
    var es := [Upload(Change(Some(f))), Transcribe, Complete(Returned(Some(segs)))];
    var u1 := Step(u, es[0]);
    var u2 := Step(u1, es[1]);
    var u3 := Step(u2, es[2]);
    assert u1.session.status == FileSelected && u1.session.file == Some(f);
    assert u2.session.status == Loading;
    assert u3.session.status == Success && u3.session.transcript == Some(segs);
    assert es[1..] == [es[1], es[2]] && es[1..][1..] == [es[2]] && es[1..][1..][1..] == [];
    assert Admissible(u3, []);
    assert Admissible(u2, [es[2]]);
    assert Admissible(u1, [es[1], es[2]]);
    assert Run(u2, [es[2]]) == u3;
    assert Run(u1, [es[1], es[2]]) == u3;
  }

  /** The gating matters: a reset pressed during loading (the button is
      hidden then) followed by the service's answer would show `success`
      with no file chosen. */
  lemma UngatedResetBreaksInv(f: File, segs: seq<Segment>)
    requires IsValidFile(f) && f.size <= MaxFileSizeBytes && |segs| > 0
    ensures Inv(Ui(Session(Some(f), Loading, PreparingMessage, None, None), InitialUpload))
    ensures !Enabled(Ui(Session(Some(f), Loading, PreparingMessage, None, None), InitialUpload), Reset)
    ensures !Inv(Step(Step(Ui(Session(Some(f), Loading, PreparingMessage, None, None), InitialUpload), Reset),
                      Complete(Returned(Some(segs)))))
  {
  }
}

=== FILE: fileupload.dfy ===
/** The upload widget: which files it accepts, the drag flags it keeps, the
    file it hands to the page, and the style it picks for its drop zone.
    Validation is shared by both revisions; the component state here is the
    current revision's, the older one is in `LegacyFileUpload`. */
module FileUpload {
  import opened Options
  import opened Strings

  /** A browser `File`: its name, its size in bytes and its MIME type. */
  datatype File = File(name: string, size: nat, mimeType: string)

  const AllowedMimeTypes: seq<string> := ["audio/mp4", "audio/m4a", "audio/x-m4a"]

  const InvalidTypeMessage: string := "Invalid file type. Please select an M4A audio file."

  /** `name.split('.').pop()?.toLowerCase()`: the text after the last dot,
      lower-cased (the whole name when there is no dot). */
  function FileExtension(name: string): string {
    AsciiLower(LastPart(name, '.'))
  }

  /** A file is accepted on its MIME type or on an `m4a` extension. */
  predicate IsValidFile(f: File) {
    f.mimeType in AllowedMimeTypes || FileExtension(f.name) == "m4a"
  }

  /* ---------- an independent description of the accepted names ---------- */

  /** One of the four spellings of `m4a`, with `m` and `a` in either case. */
  predicate M4aSpelling(s: string) {
    |s| == 3 && (s[0] == 'm' || s[0] == 'M') && s[1] == '4' && (s[2] == 'a' || s[2] == 'A')
  }

  /** The name ends in `.m4a` in any case, or is `m4a` itself. */
  predicate EndsInM4a(name: string) {
    |name| >= 3 && M4aSpelling(name[|name| - 3..]) && (|name| == 3 || name[|name| - 4] == '.')
  }

  /** The extension test accepts exactly the names that end in `.m4a` (any
      case) and the bare name `m4a`. */
  lemma ExtensionIsM4aIff(name: string)
    ensures FileExtension(name) == "m4a" <==> EndsInM4a(name)
  {
    var k := LastIndexOf(name, '.');
    LastPartAfterLastIndex(name, '.');
    var ext := name[k + 1..];
    AsciiLowerIsM4a(ext);
    if EndsInM4a(name) {
      var n := |name|;
      var tail := name[n - 3..];
      assert tail[0] == name[n - 3] && tail[1] == name[n - 2] && tail[2] == name[n - 1];
      assert name[n - 3] != '.' && name[n - 2] != '.' && name[n - 1] != '.';
      if n == 3 {
        assert k == -1;
      } else {
        assert k == n - 4;
      }
      assert ext == tail;
    }
  }

  /** The whole acceptance rule without reference to splitting. */
  lemma ValidFileIff(f: File)
    ensures IsValidFile(f) <==> f.mimeType in AllowedMimeTypes || EndsInM4a(f.name)
  {
    ExtensionIsM4aIff(f.name);
  }

  /** A name ending in an upper-case `.M4A` is accepted whatever precedes
      it, other dots included, and whatever its MIME type. */
  lemma UpperCaseExtensionAccepted(base: string, size: nat, mimeType: string)
    ensures IsValidFile(File(base + ".M4A", size, mimeType))
  {
    var a := base + ".M4A";
    var n := |a|;
    assert a[n - 4] == '.' && a[n - 3..] == "M4A";
    ValidFileIff(File(a, size, mimeType));
  }

  /** The bare name `m4a` is accepted: with no dot the whole name is the extension. */
  lemma BareNameAccepted()
    ensures IsValidFile(File("m4a", 10, ""))
  {
    ExtensionIsM4aIff("m4a");
    assert "m4a"[0..] == "m4a";
  }

  /** `.m4a` in the middle of a name does not count: with an unlisted MIME
      type, a name ending in `.m4a.txt` is rejected. */
  lemma InnerExtensionRejected(base: string, size: nat, mimeType: string)
    requires mimeType !in AllowedMimeTypes
    ensures !IsValidFile(File(base + ".m4a.txt", size, mimeType))
  {
    var d := base + ".m4a.txt";
    ValidFileIff(File(d, size, mimeType));
    assert !EndsInM4a(d) by {
      assert d[|d| - 1] == 't';
    }
  }

  /* ---------- component state and events ---------- */

  /** What the component tells the page: nothing, or `onFileSelect(file)`
      with a file or `null`. */
  datatype Callback = NoCall | Select(file: Option<File>)

  /** The input's `change` and the drop zone's four drag events; the file is
      the first in the list, absent when the list was empty. */
  datatype UploadEvent =
    | Change(chosen: Option<File>)
    | DragEnter
    | DragLeave
    | DragOver
    | Drop(dropped: Option<File>)

  datatype UploadState = UploadState(dragError: Option<string>, isDragging: bool)

  const InitialUpload := UploadState(None, false)

  datatype Reaction = Reaction(state: UploadState, call: Callback)

  /** `handleFileValidation`: clear the error, then forward the file when it
      is accepted, or record the error and forward `null` when it is not, or
      forward `null` when there is no file. */
  function Validate(st: UploadState, selected: Option<File>): (r: Reaction)
    ensures r.state.isDragging == st.isDragging
    ensures r.call.Select?
    ensures r.call.file.Some? <==> selected.Some? && IsValidFile(selected.value)
    ensures r.call.file.Some? ==> r.call.file == selected
    ensures r.state.dragError.Some? <==> selected.Some? && !IsValidFile(selected.value)
    ensures r.state.dragError.Some? ==> r.state.dragError == Some(InvalidTypeMessage)
  {
    var cleared := st.(dragError := None);
    match selected
    case Some(f) =>
      if IsValidFile(f) then Reaction(cleared, Select(Some(f)))
      else Reaction(cleared.(dragError := Some(InvalidTypeMessage)), Select(None))
    case None => Reaction(cleared, Select(None))
  }

  /** One event handled while the component is (or is not) `disabled`. The
      `change` handler has no test of its own: the input element is disabled
      along with the component, which the page's gating models. */
  function HandleEvent(st: UploadState, disabled: bool, ev: UploadEvent): (r: Reaction)
    ensures r.call != NoCall <==> ev.Change? || (ev.Drop? && !disabled)
    ensures ev.DragLeave? || ev.Drop? ==> !r.state.isDragging
    ensures ev.DragEnter? && !disabled ==> r.state.isDragging
    ensures (ev.DragEnter? && disabled) || ev.DragOver? ==> r.state == st
    ensures r.call == NoCall ==> r.state.dragError == st.dragError
  {
    match ev
    case Change(f) => Validate(st, f)
    case DragEnter => if disabled then Reaction(st, NoCall) else Reaction(st.(isDragging := true), NoCall)
    case DragLeave => Reaction(st.(isDragging := false), NoCall)
    case DragOver => Reaction(st, NoCall)
    case Drop(f) =>
      var stopped := st.(isDragging := false);
      if disabled then Reaction(stopped, NoCall) else Validate(stopped, f)
  }

  /** Only accepted files ever reach the page. */
  lemma ForwardedFilesAreValid(st: UploadState, disabled: bool, ev: UploadEvent)
    ensures HandleEvent(st, disabled, ev).call.Select? && HandleEvent(st, disabled, ev).call.file.Some?
            ==> IsValidFile(HandleEvent(st, disabled, ev).call.file.value)
  {
  }

  /** While disabled, no drag event forwards a file, records an error or
      starts a drag. */
  lemma DisabledDragIsInert(st: UploadState, ev: UploadEvent)
    requires !ev.Change?
    ensures HandleEvent(st, true, ev).call == NoCall
    ensures HandleEvent(st, true, ev).state.dragError == st.dragError
    ensures HandleEvent(st, true, ev).state.isDragging ==> st.isDragging
  {
  }

  /** The drag flag alone tracks enter and leave; the error is untouched. */
  lemma DragEnterLeave(st: UploadState)
    ensures HandleEvent(HandleEvent(st, false, DragEnter).state, false, DragLeave)
            == Reaction(st.(isDragging := false), NoCall)
  {
  }

  /** Dropping a file has the same effect on the page as choosing it, and
      leaves the zone not dragging. */
  lemma DropIsChoice(st: UploadState, f: Option<File>)
    ensures HandleEvent(st, false, Drop(f)).call == HandleEvent(st, false, Change(f)).call
    ensures HandleEvent(st, false, Drop(f)).state
            == HandleEvent(st, false, Change(f)).state.(isDragging := false)
  {
  }

  /* ---------- the drop zone's style ---------- */

  datatype ContainerStyle = DisabledStyle | ErrorStyle | DraggingStyle | IdleStyle

  /** `getContainerClasses`: disabled beats the error, which beats dragging. */
  function ContainerClasses(disabled: bool, st: UploadState): (s: ContainerStyle)
    ensures s == DisabledStyle <==> disabled
    ensures s == ErrorStyle <==> !disabled && st.dragError.Some?
    ensures s == DraggingStyle <==> !disabled && st.dragError.None? && st.isDragging
  {
    if disabled then DisabledStyle
    else if st.dragError.Some? then ErrorStyle
    else if st.isDragging then DraggingStyle
    else IdleStyle
  }

  /** A rejected choice shows the error style; an accepted one never does. */
  lemma ChoiceStyle(st: UploadState, f: File)
    ensures ContainerClasses(false, HandleEvent(st, false, Change(Some(f))).state) == ErrorStyle
            <==> !IsValidFile(f)
  {
  }
}

=== FILE: legacy_app.dfy ===
/** The older page: a loading flag instead of a status, no size limit, no
    reset button, and a transcribe button that is always shown but disabled
    without a file or while loading. The converter it inlines is the
    `Legacy` revision of `Srt`. */
module LegacyApp {
  import opened Options
  import opened Strings
  import opened Srt
  import opened FileUpload
  import opened LegacyFileUpload
  import App

  const SendingMessage: string := "Sending to AI for transcription..."

  datatype LegacySession = LegacySession(
    file: Option<File>,
    isLoading: bool,
    loadingMessage: string,
    transcript: Option<seq<Segment>>,
    error: Option<string>)

  const InitialLegacySession := LegacySession(None, false, "", None, None)

  /** `handleFileSelect`: whatever arrives is the file, and the previous
      result and error are cleared. There is no size limit. */
  function LegacyHandleFileSelect(s: LegacySession, selected: Option<File>): (r: LegacySession)
    ensures r.file == selected && r.transcript.None? && r.error.None?
    ensures r.isLoading == s.isLoading && r.loadingMessage == s.loadingMessage
  {
    s.(file := selected, transcript := None, error := None)
  }

  /** The synchronous part of `handleTranscribe`: the handler's two loading
      messages are applied in order, so it leaves the second. The service's
      first progress message, sent before its own first await, replaces that
      one too; a `LegacyProgress` event may follow at once. */
  function LegacyTranscribeStart(s: LegacySession): (r: LegacySession)
    ensures r.file == s.file
    ensures s.file.None? ==> r == s.(error := Some(App.NoFileMessage))
    ensures s.file.Some? ==> r.isLoading && r.loadingMessage == SendingMessage
                             && r.transcript.None? && r.error.None?
  {
    if s.file.None? then s.(error := Some(App.NoFileMessage))
    else
      var preparing := s.(isLoading := true, loadingMessage := App.PreparingMessage,
                          error := None, transcript := None);
      preparing.(loadingMessage := SendingMessage)
  }

  function LegacyTranscribeProgress(s: LegacySession, message: string): (r: LegacySession)
    ensures r.loadingMessage == message
    ensures r.(loadingMessage := s.loadingMessage) == s
  {
    s.(loadingMessage := message)
  }

  /** The answer: a non-empty transcript is kept, anything else becomes an
      error message; then loading ends. */
  function LegacyTranscribeComplete(s: LegacySession, outcome: App.Outcome): (r: LegacySession)
    ensures r.file == s.file && !r.isLoading && r.loadingMessage == ""
    ensures !(outcome.Returned? && outcome.result.Some? && |outcome.result.value| > 0)
            ==> r.transcript == s.transcript && r.error.Some?
    ensures outcome.Returned? && outcome.result.Some? && |outcome.result.value| > 0
            ==> r.transcript == outcome.result && r.error == s.error
    ensures outcome.Returned? && (outcome.result.None? || |outcome.result.value| == 0)
            ==> r.error == Some(App.NoContentMessage)
    ensures outcome.Threw? && outcome.thrown.ErrorInstance? ==> r.error == Some(outcome.thrown.message)
    ensures outcome == App.Threw(App.NonError) ==> r.error == Some(App.UnknownErrorMessage)
  {
    var settled :=
      match outcome
      case Returned(Some(segs)) =>
        if |segs| > 0 then s.(transcript := Some(segs))
        else s.(error := Some(App.NoContentMessage))
      case Returned(None) => s.(error := Some(App.NoContentMessage))
      case Threw(ErrorInstance(m)) => s.(error := Some(m))
      case Threw(NonError) => s.(error := Some(App.UnknownErrorMessage));
    settled.(isLoading := false, loadingMessage := "")
  }

  /** `handleDownloadSrt`: needs a transcript and a file; the document is
      the inline converter's. An empty transcript is still truthy here. */
  function LegacyDownloadSrt(s: LegacySession): (d: Option<App.Download>)
    ensures d.Some? <==> s.transcript.Some? && s.file.Some?
    ensures d.Some? ==> d.value.fileName == App.SrtFileName(s.file.value.name)
                        && d.value.content == GenerateSrtContent(Legacy, s.transcript.value)
  {
    if s.transcript.None? || s.file.None? then None
    else Some(App.Download(App.SrtFileName(s.file.value.name), GenerateSrtContent(Legacy, s.transcript.value)))
  }

  predicate TranscribeButtonDisabled(s: LegacySession) {
    s.file.None? || s.isLoading
  }

  /** The result panel, with its download button, is shown when there is a
      transcript and nothing is loading. */
  predicate ResultShown(s: LegacySession) {
    s.transcript.Some? && !s.isLoading
  }

  /* ---------- the page and the widget together ---------- */

  datatype LegacyUi = LegacyUi(session: LegacySession, upload: LegacyUploadState)

  const InitialLegacyUi := LegacyUi(InitialLegacySession, InitialLegacyUpload)

  datatype LegacyUiEvent =
    | LegacyUpload(event: UploadEvent)
    | LegacyTranscribe
    | LegacyProgress(message: string)
    | LegacyComplete(outcome: App.Outcome)

  predicate LegacyEnabled(u: LegacyUi, e: LegacyUiEvent) {
    match e
    case LegacyUpload(Change(_)) => !u.session.isLoading
    case LegacyUpload(_) => true
    case LegacyTranscribe => !TranscribeButtonDisabled(u.session)
    case LegacyProgress(_) => u.session.isLoading
    case LegacyComplete(_) => u.session.isLoading
  }

  function LegacyDeliver(s: LegacySession, call: Callback): LegacySession {
    match call
    case NoCall => s
    case Select(f) => LegacyHandleFileSelect(s, f)
  }

  function LegacyStep(u: LegacyUi, e: LegacyUiEvent): LegacyUi {
    match e
    case LegacyUpload(ev) =>
      var r := LegacyHandleEvent(u.upload, u.session.isLoading, ev);
      LegacyUi(LegacyDeliver(u.session, r.call), r.state)
    case LegacyTranscribe => u.(session := LegacyTranscribeStart(u.session))
    case LegacyProgress(m) => u.(session := LegacyTranscribeProgress(u.session, m))
    case LegacyComplete(o) => u.(session := LegacyTranscribeComplete(u.session, o))
  }

  function LegacyRun(u: LegacyUi, es: seq<LegacyUiEvent>): LegacyUi
    decreases |es|
  {
    if es == [] then u else LegacyRun(LegacyStep(u, es[0]), es[1..])
  }

  predicate LegacyAdmissible(u: LegacyUi, es: seq<LegacyUiEvent>)
    decreases |es|
  {
    es == [] || (LegacyEnabled(u, es[0]) && LegacyAdmissible(LegacyStep(u, es[0]), es[1..]))
  }

  /** What holds of the older page in every state it can reach; the name
      under the drop zone always belongs to the kept file. */
  predicate LegacyInv(u: LegacyUi) {
    var s := u.session;
    (s.isLoading ==> s.file.Some? && s.transcript.None? && s.error.None?)
    && (!s.isLoading ==> s.loadingMessage == "")
    && (s.transcript.Some? ==> |s.transcript.value| > 0 && s.file.Some? && s.error.None?)
    && (s.file.Some? ==> IsValidFile(s.file.value) && u.upload.fileName == s.file.value.name)
    && (s.file.None? ==> u.upload.fileName == "" || u.upload.fileName == LegacyInvalidTypeMessage)
  }

  lemma InitialLegacyInv()
    ensures LegacyInv(InitialLegacyUi)
  {
  }

  lemma LegacyUploadPreservesInv(u: LegacyUi, ev: UploadEvent)
    requires LegacyInv(u) && LegacyEnabled(u, LegacyUpload(ev))
    ensures LegacyInv(LegacyStep(u, LegacyUpload(ev)))
  {
    var r := LegacyHandleEvent(u.upload, u.session.isLoading, ev);
    if r.call.Select? {
      assert !u.session.isLoading;
    }
  }

  lemma LegacyStepPreservesInv(u: LegacyUi, e: LegacyUiEvent)
    requires LegacyInv(u) && LegacyEnabled(u, e)
    ensures LegacyInv(LegacyStep(u, e))
  {
    if e.LegacyUpload? {
      LegacyUploadPreservesInv(u, e.event);
    }
  }

  lemma {:induction false} LegacyRunPreservesInv(u: LegacyUi, es: seq<LegacyUiEvent>)
    requires LegacyInv(u) && LegacyAdmissible(u, es)
    ensures LegacyInv(LegacyRun(u, es))
    decreases |es|
  {
    if es != [] {
      LegacyStepPreservesInv(u, es[0]);
      LegacyRunPreservesInv(LegacyStep(u, es[0]), es[1..]);
    }
  }

  /** The enabled transcribe button always starts a request, so the
      handler's no-file branch cannot be reached from the page; and on a
      reachable page the button is enabled whenever a result is shown. */
  lemma LegacyTranscribeButtonStartsLoading(u: LegacyUi)
    requires LegacyInv(u)
    ensures LegacyEnabled(u, LegacyTranscribe) ==>
              LegacyStep(u, LegacyTranscribe).session.isLoading
              && LegacyStep(u, LegacyTranscribe).session.error.None?
    ensures ResultShown(u.session) ==> LegacyEnabled(u, LegacyTranscribe)
  {
  }

  /** Whenever the result panel is shown, its download button produces a
      document named after the chosen file. */
  lemma LegacyResultOffersDownload(es: seq<LegacyUiEvent>)
    requires LegacyAdmissible(InitialLegacyUi, es)
    ensures LegacyInv(LegacyRun(InitialLegacyUi, es))
    ensures ResultShown(LegacyRun(InitialLegacyUi, es).session) ==>
              LegacyDownloadSrt(LegacyRun(InitialLegacyUi, es).session).Some?
  {
    InitialLegacyInv();
    LegacyRunPreservesInv(InitialLegacyUi, es);
  }

  /** The older page keeps an accepted file of any size; the current page
      refuses one over its limit. */
  lemma LegacyKeepsOversizedFile(u: LegacyUi, f: File)
    requires LegacyEnabled(u, LegacyUpload(Change(Some(f)))) && IsValidFile(f)
    requires f.size > App.MaxFileSizeBytes
    ensures LegacyStep(u, LegacyUpload(Change(Some(f)))).session.file == Some(f)
    ensures App.HandleFileSelect(App.InitialSession, Some(f)).file.None?
  {
  }

  /** Choosing nothing changes nothing on the older page; the current page
      returns to `initial`. */
  lemma LegacyIgnoresEmptyChoice(u: LegacyUi)
    requires LegacyEnabled(u, LegacyUpload(Change(None)))
    ensures LegacyStep(u, LegacyUpload(Change(None))) == u
  {
  }

  /** A rejected file clears the kept file, the result and the error, and
      names the problem under the drop zone. */
  lemma LegacyRejectedChoice(u: LegacyUi, f: File)
    requires LegacyEnabled(u, LegacyUpload(Change(Some(f)))) && !IsValidFile(f)
    ensures LegacyStep(u, LegacyUpload(Change(Some(f)))).session
            == u.session.(file := None, transcript := None, error := None)
    ensures LegacyStep(u, LegacyUpload(Change(Some(f)))).upload.fileName == LegacyInvalidTypeMessage
  {
  }

  /** The older page's document matches the current one's for segments whose
      timestamps are all of the form `MM:SS`. */
  lemma LegacyDownloadMatchesCurrent(s: LegacySession, t: App.Session)
    requires s.file == t.file && s.transcript == t.transcript
    requires s.transcript.Some? && |s.transcript.value| > 0
    requires forall i :: 0 <= i < |s.transcript.value| ==> |Split(s.transcript.value[i].timestamp, ':')| == 2
    ensures LegacyDownloadSrt(s) == App.DownloadSrt(t)
  {
    RevisionsAgreeOnMinutesSeconds(s.transcript.value);
  }
}

=== FILE: legacy_fileupload.dfy ===
/** The older upload widget: the same acceptance rule, but it shows the
    chosen file's name (or a rejection notice) in place of an error flag,
    ignores an empty file list, and has no error style. */
module LegacyFileUpload {
  import opened Options
  import opened FileUpload

  const LegacyInvalidTypeMessage: string := "Invalid file type. Please select an M4A file."

  /** `fileName` is the text shown under the drop zone. */
  datatype LegacyUploadState = LegacyUploadState(fileName: string, isDragging: bool)

  const InitialLegacyUpload := LegacyUploadState("", false)

  datatype LegacyReaction = LegacyReaction(state: LegacyUploadState, call: Callback)

  /** `handleFileValidation`: an accepted file is named and forwarded, a
      rejected one replaces the name with the notice and forwards `null`, and
      an empty list does nothing at all. */
  function LegacyValidate(st: LegacyUploadState, selected: Option<File>): (r: LegacyReaction)
    ensures r.state.isDragging == st.isDragging
    ensures r.call == NoCall <==> selected.None?
    ensures selected.None? ==> r.state == st
    ensures r.call.Select? && r.call.file.Some? <==> selected.Some? && IsValidFile(selected.value)
    ensures r.call.Select? && r.call.file.Some? ==> r.call.file == selected && r.state.fileName == selected.value.name
    ensures r.call.Select? && r.call.file.None? ==> r.state.fileName == LegacyInvalidTypeMessage
  {
    match selected
    case Some(f) =>
      if IsValidFile(f) then LegacyReaction(st.(fileName := f.name), Select(Some(f)))
      else LegacyReaction(st.(fileName := LegacyInvalidTypeMessage), Select(None))
    case None => LegacyReaction(st, NoCall)
  }

  /** One event. The drag handlers are the same as the current revision's. */
  function LegacyHandleEvent(st: LegacyUploadState, disabled: bool, ev: UploadEvent): (r: LegacyReaction)
    ensures r.call != NoCall <==> (ev.Change? && ev.chosen.Some?) || (ev.Drop? && !disabled && ev.dropped.Some?)
    ensures ev.DragLeave? || ev.Drop? ==> !r.state.isDragging
    ensures ev.DragEnter? && !disabled ==> r.state.isDragging
    ensures (ev.DragEnter? && disabled) || ev.DragOver? ==> r.state == st
    ensures r.call == NoCall ==> r.state.fileName == st.fileName
  {
    match ev
    case Change(f) => LegacyValidate(st, f)
    case DragEnter =>
      if disabled then LegacyReaction(st, NoCall) else LegacyReaction(st.(isDragging := true), NoCall)
    case DragLeave => LegacyReaction(st.(isDragging := false), NoCall)
    case DragOver => LegacyReaction(st, NoCall)
    case Drop(f) =>
      var stopped := st.(isDragging := false);
      if disabled then LegacyReaction(stopped, NoCall) else LegacyValidate(stopped, f)
  }

  /** Both revisions forward the same file for a non-empty list, and agree on
      the drag flag; they differ only on an empty list, which the current one
      reports as `null` and the older one ignores. */
  lemma RevisionsForwardTheSameFile(st: UploadState, older: LegacyUploadState, disabled: bool, ev: UploadEvent)
    requires st.isDragging == older.isDragging
    ensures LegacyHandleEvent(older, disabled, ev).state.isDragging == HandleEvent(st, disabled, ev).state.isDragging
    ensures LegacyHandleEvent(older, disabled, ev).call == NoCall
            ==> HandleEvent(st, disabled, ev).call in {NoCall, Select(None)}
    ensures LegacyHandleEvent(older, disabled, ev).call != NoCall
            ==> LegacyHandleEvent(older, disabled, ev).call == HandleEvent(st, disabled, ev).call
  {
  }

  /** The older drop zone has three looks: disabled beats dragging. */
  function LegacyContainerClasses(disabled: bool, st: LegacyUploadState): (s: ContainerStyle)
    ensures s != ErrorStyle
    ensures s == DisabledStyle <==> disabled
    ensures s == DraggingStyle <==> !disabled && st.isDragging
  {
    if disabled then DisabledStyle else if st.isDragging then DraggingStyle else IdleStyle
  }

  /** Without an error showing, both revisions pick the same look. */
  lemma StylesAgreeWithoutError(disabled: bool, st: UploadState, older: LegacyUploadState)
    requires st.dragError.None? && st.isDragging == older.isDragging
    ensures LegacyContainerClasses(disabled, older) == ContainerClasses(disabled, st)
  {
  }
}

=== FILE: options.dfy ===
/** A value that may be absent: JavaScript's `null`/`undefined` for a
    reference, or `NaN` for a number that could not be read. */
module Options {

  datatype Option<T> = None | Some(value: T)

}

=== FILE: srt.dfy ===
/** The SubRip (.srt) converter: turns an ordered, speaker-labelled
    transcript into numbered subtitle cues. Two revisions exist and both are
    modelled: the one inlined in the download handler of the root App.tsx
    (`Legacy`) and the module packages/frontend/utils/srt.ts (`Current`).
    They share the end-time rule and the layout and differ in how a
    timestamp is read. Times are whole seconds. */
module Srt {
  import opened Options
  import opened Strings

  /** One line of the transcript the service returns. */
  datatype Segment = Segment(speaker: string, timestamp: string, transcript: string)

  datatype Revision = Legacy | Current

  /* ---------- reading timestamps ---------- */

  /** `Number(part)` for one ':'-separated piece of a timestamp, None
      standing for NaN: a string of decimal digits denotes its value (the
      empty string denotes 0), anything else is NaN. */
  function PartNumber(p: string): Option<nat> {
    if IsDigits(p) then Some(DigitsValue(p)) else None
  }

  predicate AllNumeric(parts: seq<string>) {
    forall i :: 0 <= i < |parts| ==> PartNumber(parts[i]).Some?
  }

  /** `parseMMSS` of utils/srt.ts: fewer than two pieces or a NaN piece read
      as 0; three pieces as HH:MM:SS; any other count as MM:SS on the first
      two pieces. */
  function ParseTimestamp(ts: string): (seconds: nat)
    ensures seconds > 0 ==> |Split(ts, ':')| >= 2 && AllNumeric(Split(ts, ':'))
  {
    var parts := Split(ts, ':');
    if |parts| < 2 || !AllNumeric(parts) then 0
    else if |parts| == 3 then
      PartNumber(parts[0]).value * 3600 + PartNumber(parts[1]).value * 60 + PartNumber(parts[2]).value
    else
      PartNumber(parts[0]).value * 60 + PartNumber(parts[1]).value
  }

  /** `parseMMSS` inlined in the root App.tsx: exactly two numeric pieces
      read as MM:SS, anything else as 0. */
  function ParseTimestampLegacy(ts: string): (seconds: nat)
    ensures seconds > 0 ==> |Split(ts, ':')| == 2
  {
    var parts := Split(ts, ':');
    if |parts| != 2 || PartNumber(parts[0]).None? || PartNumber(parts[1]).None? then 0
    else PartNumber(parts[0]).value * 60 + PartNumber(parts[1]).value
  }

  function Parse(rev: Revision, ts: string): nat {
    match rev
    case Legacy => ParseTimestampLegacy(ts)
    case Current => ParseTimestamp(ts)
  }

  /** Both revisions read `MM:SS` as minutes and seconds. */
  lemma ParseMinutesSeconds(m: string, s: string)
    requires IsDigits(m) && IsDigits(s)
    ensures ParseTimestamp(m + ":" + s) == DigitsValue(m) * 60 + DigitsValue(s)
    ensures ParseTimestampLegacy(m + ":" + s) == DigitsValue(m) * 60 + DigitsValue(s)
  {
    var parts := Split(m + ":" + s, ':');
    assert parts == [m, s] by {
      DigitsExclude(m, ':');
      DigitsExclude(s, ':');
      SplitTwo(m, s, ':');
    }
    assert AllNumeric(parts);
  }

  /** The current revision reads `HH:MM:SS` as hours, minutes and seconds;
      the legacy one reads it as 0. */
  lemma ParseHoursMinutesSeconds(h: string, m: string, s: string)
    requires IsDigits(h) && IsDigits(m) && IsDigits(s)
    ensures ParseTimestamp(h + ":" + m + ":" + s)
            == DigitsValue(h) * 3600 + DigitsValue(m) * 60 + DigitsValue(s)
    ensures ParseTimestampLegacy(h + ":" + m + ":" + s) == 0
  {
    var parts := Split(h + ":" + m + ":" + s, ':');
    assert parts == [h, m, s] by {
      DigitsExclude(h, ':');
      DigitsExclude(m, ':');
      DigitsExclude(s, ':');
      SplitThree(h, m, s, ':');
    }
    assert AllNumeric(parts) by {
      forall i | 0 <= i < 3 ensures PartNumber(parts[i]).Some? {}
    }
    assert PartNumber(parts[0]) == Some(DigitsValue(h));
    assert PartNumber(parts[1]) == Some(DigitsValue(m));
    assert PartNumber(parts[2]) == Some(DigitsValue(s));
  }

  /** Four or more numeric pieces are read by the current revision as
      `MM:SS` on the first two, the rest ignored; the legacy one reads 0. */
  lemma ParseExtraPiecesIgnored(m: string, s: string, tail: string)
    requires IsDigits(m) && IsDigits(s)
    requires |Split(tail, ':')| >= 2 && AllNumeric(Split(tail, ':'))
    ensures ParseTimestamp(m + ":" + s + ":" + tail) == DigitsValue(m) * 60 + DigitsValue(s)
    ensures ParseTimestampLegacy(m + ":" + s + ":" + tail) == 0
  {
    var rest := Split(tail, ':');
    var parts := Split(m + ":" + s + ":" + tail, ':');
    assert parts == [m, s] + rest by {
      DigitsExclude(m, ':');
      DigitsExclude(s, ':');
      SplitTwoThenRest(m, s, tail, ':');
    }
    assert AllNumeric(parts) by {
      assert PartNumber([m, s][0]).Some? && PartNumber([m, s][1]).Some?;
      AllNumericAppend([m, s], rest);
    }
    assert |parts| >= 4;
    assert PartNumber(parts[0]) == Some(DigitsValue(m));
    assert PartNumber(parts[1]) == Some(DigitsValue(s));
  }

  /** Numeric pieces stay numeric when two lists of them are joined. */
  lemma AllNumericAppend(a: seq<string>, b: seq<string>)
    requires AllNumeric(a) && AllNumeric(b)
    ensures AllNumeric(a + b)
  {
    forall i | 0 <= i < |a + b| ensures PartNumber((a + b)[i]).Some? {
      if i >= |a| {
        assert (a + b)[i] == b[i - |a|];
      }
    }
  }

  /** A timestamp without a ':' reads as 0 in both revisions. */
  lemma ParseWithoutColon(ts: string)
    requires ':' !in ts
    ensures ParseTimestamp(ts) == 0 && ParseTimestampLegacy(ts) == 0
  {
    SplitNoSeparator(ts, ':');
  }

  /** A piece that is not a number makes both revisions read 0. */
  lemma ParseNonNumericPiece(ts: string, i: nat)
    requires i < |Split(ts, ':')| && PartNumber(Split(ts, ':')[i]).None?
    ensures ParseTimestamp(ts) == 0 && ParseTimestampLegacy(ts) == 0
  {
  }

  /** On timestamps of exactly two pieces the revisions agree. */
  lemma ParseRevisionsAgreeOnTwoPieces(ts: string)
    requires |Split(ts, ':')| == 2
    ensures ParseTimestampLegacy(ts) == ParseTimestamp(ts)
  {
  }

  /* ---------- cue timing ---------- */

  function StartTime(rev: Revision, segs: seq<Segment>, i: nat): nat
    requires i < |segs|
  {
    Parse(rev, segs[i].timestamp)
  }

  /** A cue ends where the next segment starts, unless that start is not
      later, when it lasts 3 seconds; the final cue lasts 5 seconds. Either
      way a cue ends strictly after it starts. */
  function EndTime(rev: Revision, segs: seq<Segment>, i: nat): (end: nat)
    requires i < |segs|
    ensures end > StartTime(rev, segs, i)
    ensures i + 1 < |segs| && StartTime(rev, segs, i + 1) > StartTime(rev, segs, i)
            ==> end == StartTime(rev, segs, i + 1)
    ensures i + 1 < |segs| && StartTime(rev, segs, i + 1) <= StartTime(rev, segs, i)
            ==> end == StartTime(rev, segs, i) + 3
    ensures i + 1 == |segs| ==> end == StartTime(rev, segs, i) + 5
  {
    var start := StartTime(rev, segs, i);
    if i < |segs| - 1 then
      var next := StartTime(rev, segs, i + 1);
      if next <= start then start + 3 else next
    else
      start + 5
  }

  predicate StrictlyIncreasing(rev: Revision, segs: seq<Segment>) {
    forall i :: 0 <= i < |segs| - 1 ==> StartTime(rev, segs, i) < StartTime(rev, segs, i + 1)
  }

  /** With strictly increasing timestamps the cues never overlap: every cue
      ends no later than any later cue starts. */
  lemma {:induction false} CuesDoNotOverlap(rev: Revision, segs: seq<Segment>, i: nat, j: nat)
    requires StrictlyIncreasing(rev, segs)
    requires i < j < |segs|
    ensures EndTime(rev, segs, i) <= StartTime(rev, segs, j)
    decreases j - i
  {
    if j > i + 1 {
      CuesDoNotOverlap(rev, segs, i, j - 1);
      assert StartTime(rev, segs, j - 1) < StartTime(rev, segs, j);
    }
  }

  /** Conversely, a cue that does not run up to the next segment's start
      marks a timestamp that failed to increase. */
  lemma FallbackMarksNonIncrease(rev: Revision, segs: seq<Segment>, i: nat)
    requires i + 1 < |segs|
    requires EndTime(rev, segs, i) != StartTime(rev, segs, i + 1)
    ensures StartTime(rev, segs, i + 1) <= StartTime(rev, segs, i)
    ensures EndTime(rev, segs, i) - StartTime(rev, segs, i) == 3
  {
  }

  /* ---------- formatting times ---------- */

  /** `n.toString().padStart(2, '0')` */
  function Pad2(n: nat): string {
    PadStart(Dec(n), 2, '0')
  }

  /** Hours, minutes and seconds each zero-padded to at least two digits
      and separated by ':'. */
  function ClockOf(hours: nat, minutes: nat, seconds: nat): string {
    Pad2(hours) + ":" + Pad2(minutes) + ":" + Pad2(seconds)
  }

  /** The clock part of a whole number of seconds; both revisions of
      `formatSrtTime` compute it the same way. */
  function Clock(total: nat): string {
    ClockOf(total / 3600, (total % 3600) / 60, total % 60)
  }

  /** `formatSrtTime` of utils/srt.ts on a whole number of seconds: the
      clock, a comma and the fractional part in milliseconds padded to three
      digits. `Math.round` is the identity here, the product being whole. */
  function FormatSrtTime(total: nat): (s: string)
    ensures s == FormatSrtTimeLegacy(total)
  {
    ZeroMilliseconds(total);
    var milliseconds := PadStart(Dec((total % 1) * 1000), 3, '0');
    Clock(total) + "," + milliseconds
  }

  /** `formatSrtTime` inlined in the root App.tsx: the clock and the literal
      milliseconds `000`. */
  function FormatSrtTimeLegacy(total: nat): (s: string)
    ensures |s| >= 12 && s[|s| - 4] == ','
  {
    Clock(total) + ",000"
  }

  function Format(rev: Revision, total: nat): string {
    match rev
    case Legacy => FormatSrtTimeLegacy(total)
    case Current => FormatSrtTime(total)
  }

  /** The millisecond field of a whole number of seconds is `000`. */
  lemma ZeroMilliseconds(total: nat)
    ensures PadStart(Dec((total % 1) * 1000), 3, '0') == "000"
  {
    assert (total % 1) * 1000 == 0;
    var zero := Dec(0);
    assert zero == "0" by {
      assert |zero| == 1 && DigitValue(zero[0]) == 0;
    }
    var r := PadStart(zero, 3, '0');
    PadStartShape(zero, 3, '0');
    assert |r| == 3 && r[2..] == zero;
    assert r[0] == '0' && r[1] == '0' && r[2] == '0';
  }

  /** A digit string of at least `width` characters that denotes `n`. */
  predicate PaddedDecimal(s: string, n: nat, width: nat) {
    |s| >= width && IsDigits(s) && DigitsValue(s) == n
  }

  lemma Pad2Value(n: nat)
    ensures PaddedDecimal(Pad2(n), n, 2)
    ensures n < 100 ==> |Pad2(n)| == 2
  {
    DecValue(n);
    PadZerosValue(Dec(n), 2);
    PadStartShape(Dec(n), 2, '0');
    if 10 <= n < 100 {
      assert n / 10 < 10;
    }
  }

  /** Hours, minutes and seconds of a whole number of seconds. */
  lemma ClockArithmetic(total: nat)
    ensures (total % 3600) / 60 < 60 && total % 60 < 60
    ensures (total / 3600) * 3600 + ((total % 3600) / 60) * 60 + total % 60 == total
  {
    var h, r := total / 3600, total % 3600;
    var m, sec := r / 60, r % 60;
    assert total == h * 3600 + r && 0 <= r < 3600;
    assert r == m * 60 + sec && 0 <= sec < 60;
    assert h * 3600 == (h * 60) * 60;
    assert total == (h * 60 + m) * 60 + sec;
    SecondsField(total, h * 60 + m, sec);
  }

  /** The remainder by 60 of `q * 60 + s` with `s < 60` is `s`. */
  lemma SecondsField(n: nat, q: nat, s: nat)
    requires n == q * 60 + s && s < 60
    ensures n % 60 == s
  {
    assert n / 60 == q;
  }

  /** Both revisions render a time as its clock followed by `,000`. */
  lemma FormatIsClockAndMilliseconds(rev: Revision, total: nat)
    ensures Format(rev, total) == Clock(total) + [','] + "000"
  {
  }

  /** A time of less than 100 hours renders in exactly twelve characters. */
  lemma FormatWidth(rev: Revision, total: nat)
    requires total < 100 * 3600
    ensures |Format(rev, total)| == 12
  {
    FormatIsClockAndMilliseconds(rev, total);
    ClockArithmetic(total);
    Pad2Value(total / 3600);
    Pad2Value((total % 3600) / 60);
    Pad2Value(total % 60);
  }

  /* ---------- cues and their rendering ---------- */

  /** A subtitle cue: its 1-based number, its interval in seconds and its text line. */
  datatype Cue = Cue(number: nat, start: nat, end: nat, text: string)

  function CueAt(rev: Revision, segs: seq<Segment>, i: nat): Cue
    requires i < |segs|
  {
    Cue(i + 1, StartTime(rev, segs, i), EndTime(rev, segs, i),
        segs[i].speaker + ": " + segs[i].transcript)
  }

  /** One cue per segment, in input order. */
  function Cues(rev: Revision, segs: seq<Segment>): (cues: seq<Cue>)
    ensures |cues| == |segs|
    ensures forall i :: 0 <= i < |segs| ==> cues[i].number == i + 1 && cues[i].start < cues[i].end
  {
    seq(|segs|, i requires 0 <= i < |segs| => CueAt(rev, segs, i))
  }

  function TimingLine(rev: Revision, c: Cue): string {
    Format(rev, c.start) + " --> " + Format(rev, c.end)
  }

  /** `{number}\n{START} --> {END}\n{text}\n` */
  function RenderCue(rev: Revision, c: Cue): string {
    Dec(c.number) + "\n" + TimingLine(rev, c) + "\n" + c.text + "\n"
  }

  /** `transcript.map(...)`: the rendered blocks, in order. */
  function Blocks(rev: Revision, cues: seq<Cue>): (blocks: seq<string>)
    ensures |blocks| == |cues|
    decreases |cues|
  {
    if |cues| == 0 then [] else [RenderCue(rev, cues[0])] + Blocks(rev, cues[1..])
  }

  /** The blocks joined by "\n", so that a blank line separates them. */
  function RenderCues(rev: Revision, cues: seq<Cue>): (doc: string)
    ensures doc == "" <==> |cues| == 0
  {
    if |cues| == 0 then "" else Join(Blocks(rev, cues), '\n')
  }

  /** `generateSrtContent`: the empty string for an empty transcript, one
      block per segment otherwise. */
  function GenerateSrtContent(rev: Revision, segs: seq<Segment>): (doc: string)
    ensures doc == "" <==> |segs| == 0
  {
    RenderCues(rev, Cues(rev, segs))
  }

  /* ---------- reading a document back ---------- */

  /** Reads a clock `HH:MM:SS` (at least two hour digits, exactly two
      minute and second digits, minutes and seconds below 60) into seconds. */
  function ReadClock(c: string): Option<nat> {
    var parts := Split(c, ':');
    if |parts| != 3 || !IsDigits(parts[0]) || !IsDigits(parts[1]) || !IsDigits(parts[2])
       || |parts[0]| < 2 || |parts[1]| != 2 || |parts[2]| != 2
       || DigitsValue(parts[1]) >= 60 || DigitsValue(parts[2]) >= 60
    then None
    else Some(DigitsValue(parts[0]) * 3600 + DigitsValue(parts[1]) * 60 + DigitsValue(parts[2]))
  }

  /** Reads a rendered time `HH:MM:SS,000` back into seconds. */
  function ReadSrtTime(t: string): Option<nat> {
    var halves := Split(t, ',');
    if |halves| != 2 || halves[1] != "000" then None else ReadClock(halves[0])
  }

  /** Reads one four-line block: number, timing, text, blank. */
  function ReadCue(number: string, timing: string, text: string, blank: string): Option<Cue> {
    var times := Split(timing, ' ');
    if blank != "" || number == "" || !IsDigits(number) || |times| != 3 || times[1] != "-->" then None
    else
      match (ReadSrtTime(times[0]), ReadSrtTime(times[2]))
      case (Some(start), Some(end)) => Some(Cue(DigitsValue(number), start, end, text))
      case _ => None
  }

  function ReadBlocks(lines: seq<string>): Option<seq<Cue>>
    decreases |lines|
  {
    if |lines| == 0 then Some([])
    else if |lines| < 4 then None
    else
      match ReadCue(lines[0], lines[1], lines[2], lines[3])
      case None => None
      case Some(c) =>
        match ReadBlocks(lines[4..])
        case None => None
        case Some(rest) => Some([c] + rest)
  }

  /** Reads a subtitle document back into its cues. */
  function ReadSrt(doc: string): Option<seq<Cue>> {
    if doc == "" then Some([]) else ReadBlocks(Split(doc, '\n'))
  }

  predicate ClockChars(s: string) {
    forall k :: 0 <= k < |s| ==> IsDigit(s[k]) || s[k] == ':'
  }

  lemma ClockOfReadsBack(h: nat, m: nat, s: nat)
    requires m < 60 && s < 60
    ensures ReadClock(ClockOf(h, m, s)) == Some(h * 3600 + m * 60 + s)
  {
    Pad2Value(h);
    Pad2Value(m);
    Pad2Value(s);
    var parts := Split(ClockOf(h, m, s), ':');
    assert parts == [Pad2(h), Pad2(m), Pad2(s)] by {
      DigitsExclude(Pad2(h), ':');
      DigitsExclude(Pad2(m), ':');
      DigitsExclude(Pad2(s), ':');
      SplitThree(Pad2(h), Pad2(m), Pad2(s), ':');
    }
  }

  lemma ClockCharsOfDigits(a: string, b: string, c: string)
    requires IsDigits(a) && IsDigits(b) && IsDigits(c)
    ensures ClockChars(a + ":" + b + ":" + c)
  {
    var clock := a + ":" + b + ":" + c;
    forall k | 0 <= k < |clock| ensures IsDigit(clock[k]) || clock[k] == ':' {
      if k < |a| {
        assert clock[k] == a[k];
      } else if k == |a| {
      } else if k < |a| + 1 + |b| {
        assert clock[k] == b[k - |a| - 1];
      } else if k == |a| + 1 + |b| {
      } else {
        assert clock[k] == c[k - |a| - 2 - |b|];
      }
    }
  }

  lemma ClockOfChars(h: nat, m: nat, s: nat)
    ensures ClockChars(ClockOf(h, m, s))
  {
    Pad2Value(h);
    Pad2Value(m);
    Pad2Value(s);
    ClockCharsOfDigits(Pad2(h), Pad2(m), Pad2(s));
  }

  lemma ParseClockOf(h: nat, m: nat, s: nat)
    ensures ParseTimestamp(ClockOf(h, m, s)) == h * 3600 + m * 60 + s
  {
    Pad2Value(h);
    Pad2Value(m);
    Pad2Value(s);
    ParseHoursMinutesSeconds(Pad2(h), Pad2(m), Pad2(s));
  }

  lemma ClockReadsBack(total: nat)
    ensures ReadClock(Clock(total)) == Some(total)
    ensures ClockChars(Clock(total))
  {
    ClockArithmetic(total);
    ClockOfReadsBack(total / 3600, (total % 3600) / 60, total % 60);
    ClockOfChars(total / 3600, (total % 3600) / 60, total % 60);
  }

  /** A rendered time reads back as the time it renders, and holds neither
      a space nor a line break. */
  lemma ReadFormattedTime(rev: Revision, total: nat)
    ensures ReadSrtTime(Format(rev, total)) == Some(total)
    ensures ' ' !in Format(rev, total) && '\n' !in Format(rev, total)
  {
    var clock := Clock(total);
    FormatIsClockAndMilliseconds(rev, total);
    ClockReadsBack(total);
    assert ',' !in clock && ' ' !in clock && '\n' !in clock by {
      assert forall k :: 0 <= k < |clock| ==> IsDigit(clock[k]) || clock[k] == ':';
    }
    assert Split(Format(rev, total), ',') == [clock, "000"] by {
      SplitTwo(clock, "000", ',');
    }
  }

  /** The application's own timestamp parser reads the clock part of a
      rendered time (the text before the comma) as the time it renders. */
  lemma TimestampParserReadsFormattedClock(rev: Revision, total: nat)
    ensures |Format(rev, total)| >= 4
    ensures ParseTimestamp(Format(rev, total)[..|Format(rev, total)| - 4]) == total
  {
    FormatIsClockAndMilliseconds(rev, total);
    assert Format(rev, total)[..|Format(rev, total)| - 4] == Clock(total);
    ClockArithmetic(total);
    ParseClockOf(total / 3600, (total % 3600) / 60, total % 60);
  }

  /** The lines of one rendered block. */
  function CueLines(rev: Revision, c: Cue): seq<string> {
    [Dec(c.number), TimingLine(rev, c), c.text, ""]
  }

  function AllCueLines(rev: Revision, cues: seq<Cue>): seq<string> {
    if |cues| == 0 then [] else CueLines(rev, cues[0]) + AllCueLines(rev, cues[1..])
  }

  predicate SingleLineTexts(cues: seq<Cue>) {
    forall i :: 0 <= i < |cues| ==> '\n' !in cues[i].text
  }

  lemma TimingLineChars(rev: Revision, c: Cue)
    ensures '\n' !in TimingLine(rev, c)
    ensures Split(TimingLine(rev, c), ' ') == [Format(rev, c.start), "-->", Format(rev, c.end)]
  {
    var f, g := Format(rev, c.start), Format(rev, c.end);
    ReadFormattedTime(rev, c.start);
    ReadFormattedTime(rev, c.end);
    assert TimingLine(rev, c) == f + [' '] + "-->" + [' '] + g;
    assert ' ' !in "-->";
    SplitThree(f, "-->", g, ' ');
  }

  lemma SplitRenderedCue(rev: Revision, c: Cue)
    requires '\n' !in c.text
    ensures Split(RenderCue(rev, c), '\n') == CueLines(rev, c)
  {
    var a, b, t := Dec(c.number), TimingLine(rev, c), c.text;
    assert RenderCue(rev, c) == a + ['\n'] + b + ['\n'] + t + ['\n'];
    TimingLineChars(rev, c);
    DigitsExclude(a, '\n');
    SplitThreeTerminated(a, b, t, '\n');
  }

  /** A document of several cues is its first block, a line break, and the
      document of the rest. */
  lemma RenderCuesCons(rev: Revision, cues: seq<Cue>)
    requires |cues| > 1
    ensures RenderCues(rev, cues) == RenderCue(rev, cues[0]) + ['\n'] + RenderCues(rev, cues[1..])
  {
    var blocks := Blocks(rev, cues);
    assert blocks == [RenderCue(rev, cues[0])] + Blocks(rev, cues[1..]);
    assert blocks[0] == RenderCue(rev, cues[0]) && blocks[1..] == Blocks(rev, cues[1..]);
    assert Join(blocks, '\n') == blocks[0] + ['\n'] + Join(blocks[1..], '\n');
  }

  /** The lines of two texts joined by a line break are the lines of each. */
  lemma SplitJoinedLines(a: string, b: string, linesA: seq<string>, linesB: seq<string>)
    requires Split(a, '\n') == linesA && Split(b, '\n') == linesB
    ensures Split(a + ['\n'] + b, '\n') == linesA + linesB
  {
    SplitAround(a, b, '\n');
  }

  lemma {:induction false} SplitRenderedCues(rev: Revision, cues: seq<Cue>)
    requires |cues| >= 1 && SingleLineTexts(cues)
    ensures Split(RenderCues(rev, cues), '\n') == AllCueLines(rev, cues)
    decreases |cues|
  {
    var first := RenderCue(rev, cues[0]);
    assert Split(first, '\n') == CueLines(rev, cues[0]) by {
      SplitRenderedCue(rev, cues[0]);
    }
    if |cues| > 1 {
      var rest := cues[1..];
      assert RenderCues(rev, cues) == first + ['\n'] + RenderCues(rev, rest) by {
        RenderCuesCons(rev, cues);
      }
      assert Split(RenderCues(rev, rest), '\n') == AllCueLines(rev, rest) by {
        SplitRenderedCues(rev, rest);
      }
      SplitJoinedLines(first, RenderCues(rev, rest), CueLines(rev, cues[0]), AllCueLines(rev, rest));
      assert AllCueLines(rev, cues) == CueLines(rev, cues[0]) + AllCueLines(rev, rest);
    } else {
      assert RenderCues(rev, cues) == first;
      assert AllCueLines(rev, cues) == CueLines(rev, cues[0]) + AllCueLines(rev, []);
    }
  }

  lemma ReadRenderedCue(rev: Revision, c: Cue)
    ensures ReadCue(Dec(c.number), TimingLine(rev, c), c.text, "") == Some(c)
  {
    DecValue(c.number);
    ReadFormattedTime(rev, c.start);
    ReadFormattedTime(rev, c.end);
    TimingLineChars(rev, c);
  }

  /** A rendered block's lines, followed by lines that read back as the
      remaining cues, read back as all the cues. */
  lemma ReadCueLinesThen(rev: Revision, cues: seq<Cue>, tail: seq<string>)
    requires |cues| > 0 && ReadBlocks(tail) == Some(cues[1..])
    ensures ReadBlocks(CueLines(rev, cues[0]) + tail) == Some(cues)
  {
    var c := cues[0];
    var lines := CueLines(rev, c) + tail;
    assert lines[4..] == tail;
    assert lines[0] == Dec(c.number) && lines[1] == TimingLine(rev, c) && lines[2] == c.text && lines[3] == "";
    ReadRenderedCue(rev, c);
    assert [c] + cues[1..] == cues;
  }

  lemma {:induction false} ReadAllCueLines(rev: Revision, cues: seq<Cue>)
    ensures ReadBlocks(AllCueLines(rev, cues)) == Some(cues)
    decreases |cues|
  {
    if |cues| > 0 {
      var tail := AllCueLines(rev, cues[1..]);
      assert ReadBlocks(tail) == Some(cues[1..]) by {
        ReadAllCueLines(rev, cues[1..]);
      }
      assert ReadBlocks(CueLines(rev, cues[0]) + tail) == Some(cues) by {
        ReadCueLinesThen(rev, cues, tail);
      }
      assert AllCueLines(rev, cues) == CueLines(rev, cues[0]) + tail;
    }
  }

  /** Round trip: a rendered document reads back as the cues it renders,
      provided no cue text spans several lines. */
  lemma ReadRenderedCues(rev: Revision, cues: seq<Cue>)
    requires SingleLineTexts(cues)
    ensures ReadSrt(RenderCues(rev, cues)) == Some(cues)
  {
    if |cues| > 0 {
      SplitRenderedCues(rev, cues);
      ReadAllCueLines(rev, cues);
    }
  }

  /** The converter's output reads back as one cue per segment, in input
      order, numbered from 1, each with the segment's start, its inferred
      end and the line `speaker: transcript`. */
  lemma GeneratedDocumentReadsBack(rev: Revision, segs: seq<Segment>)
    requires forall i :: 0 <= i < |segs| ==> '\n' !in segs[i].speaker && '\n' !in segs[i].transcript
    ensures ReadSrt(GenerateSrtContent(rev, segs)) == Some(Cues(rev, segs))
  {
    var cues := Cues(rev, segs);
    assert SingleLineTexts(cues) by {
      forall i | 0 <= i < |cues| ensures '\n' !in cues[i].text {
        assert cues[i].text == segs[i].speaker + ": " + segs[i].transcript;
      }
    }
    ReadRenderedCues(rev, cues);
  }

  /** When every timestamp has exactly two pieces the revisions produce the
      same document. */
  lemma RevisionsAgreeOnMinutesSeconds(segs: seq<Segment>)
    requires forall i :: 0 <= i < |segs| ==> |Split(segs[i].timestamp, ':')| == 2
    ensures GenerateSrtContent(Legacy, segs) == GenerateSrtContent(Current, segs)
  {
    var legacyCues, currentCues := Cues(Legacy, segs), Cues(Current, segs);
    forall i | 0 <= i < |segs|
      ensures StartTime(Legacy, segs, i) == StartTime(Current, segs, i)
    {
      ParseRevisionsAgreeOnTwoPieces(segs[i].timestamp);
    }
    assert legacyCues == currentCues;
    BlocksRevisionsAgree(currentCues);
  }

  /** On whole seconds both revisions render every block identically. */
  lemma {:induction false} BlocksRevisionsAgree(cues: seq<Cue>)
    ensures Blocks(Legacy, cues) == Blocks(Current, cues)
    decreases |cues|
  {
    if |cues| > 0 {
      BlocksRevisionsAgree(cues[1..]);
    }
  }

  /* ---------- worked examples ---------- */

  lemma Pad2OneDigit(n: nat)
    requires n < 10
    ensures Pad2(n) == ['0', DigitChar(n)]
  {
    assert Dec(n) == [DigitChar(n)];
    assert PadStart([DigitChar(n)], 2, '0') == PadStart(['0', DigitChar(n)], 2, '0');
  }

  lemma Pad2TwoDigits(n: nat)
    requires 10 <= n < 100
    ensures Pad2(n) == [DigitChar(n / 10), DigitChar(n % 10)]
  {
    assert Dec(n / 10) == [DigitChar(n / 10)];
    assert Dec(n) == [DigitChar(n / 10), DigitChar(n % 10)];
  }

  lemma ReadTwoDigits(a: char, b: char)
    requires IsDigit(a) && IsDigit(b)
    ensures IsDigits([a, b]) && DigitsValue([a, b]) == 10 * DigitValue(a) + DigitValue(b)
  {
    assert DigitsValue([a]) == DigitValue(a) by {
      assert [a][..0] == [];
    }
    assert [a, b][..1] == [a];
  }

  /** The mock transcript the service returns when no key is configured. */
  const SampleTranscript: seq<Segment> := [
    Segment("Speaker 1", "00:02",
            "Hello, this is a simulated transcript for testing purposes. Is this thing working?"),
    Segment("Speaker 2", "00:06",
            "Loud and clear! The mock service is functioning correctly. This allows us to test the UI flow without making a real API call."),
    Segment("Speaker 1", "00:12",
            "Excellent. So the user can upload a file, see the loading state, and then this transcript will appear.")
  ]

  lemma SampleStarts()
    ensures ParseTimestamp("00:02") == 2
    ensures ParseTimestamp("00:06") == 6
    ensures ParseTimestamp("00:12") == 12
  {
    ReadTwoDigits('0', '0');
    ReadTwoDigits('0', '2');
    ReadTwoDigits('0', '6');
    ReadTwoDigits('1', '2');
    ParseMinutesSeconds("00", "02");
    ParseMinutesSeconds("00", "06");
    ParseMinutesSeconds("00", "12");
    assert "00:02" == "00" + ":" + "02";
    assert "00:06" == "00" + ":" + "06";
    assert "00:12" == "00" + ":" + "12";
  }

  lemma FormatUnderAMinute(t: nat)
    requires t < 60
    ensures Format(Current, t) == "00:00:" + Pad2(t) + ",000"
  {
    FormatIsClockAndMilliseconds(Current, t);
    assert t / 3600 == 0 && (t % 3600) / 60 == 0 && t % 60 == t;
    Pad2OneDigit(0);
    assert Pad2(0) == "00";
  }

  /** A time under a minute, character by character. */
  lemma FormatUnderAMinuteDigits(t: nat)
    requires t < 60
    ensures Format(Current, t)
            == ['0', '0', ':', '0', '0', ':', DigitChar(t / 10), DigitChar(t % 10), ',', '0', '0', '0']
  {
    FormatUnderAMinute(t);
    if t < 10 {
      Pad2OneDigit(t);
      assert DigitChar(0) == '0';
    } else {
      Pad2TwoDigits(t);
    }
  }

  lemma SmallTimes()
    ensures Format(Current, 2) == "00:00:02,000"
    ensures Format(Current, 6) == "00:00:06,000"
    ensures Format(Current, 12) == "00:00:12,000"
    ensures Format(Current, 17) == "00:00:17,000"
  {
    assert Format(Current, 2) == "00:00:02,000" by {
      FormatUnderAMinuteDigits(2);
      assert DigitChar(0) == '0' && DigitChar(2) == '2';
    }
    assert Format(Current, 6) == "00:00:06,000" by {
      FormatUnderAMinuteDigits(6);
      assert DigitChar(0) == '0' && DigitChar(6) == '6';
    }
    assert Format(Current, 12) == "00:00:12,000" by {
      FormatUnderAMinuteDigits(12);
      assert DigitChar(1) == '1' && DigitChar(2) == '2';
    }
    assert Format(Current, 17) == "00:00:17,000" by {
      FormatUnderAMinuteDigits(17);
      assert DigitChar(1) == '1' && DigitChar(7) == '7';
    }
  }

  /** Three segments starting at 2, 6 and 12 seconds give cues spanning 2-6,
      6-12 and 12-17 seconds, the last one taking the five-second default. */
  lemma CuesOfSampleStarts(segs: seq<Segment>)
    requires |segs| == 3
    requires StartTime(Current, segs, 0) == 2 && StartTime(Current, segs, 1) == 6
             && StartTime(Current, segs, 2) == 12
    ensures Cues(Current, segs)[0].start == 2 && Cues(Current, segs)[0].end == 6
    ensures Cues(Current, segs)[1].start == 6 && Cues(Current, segs)[1].end == 12
    ensures Cues(Current, segs)[2].start == 12 && Cues(Current, segs)[2].end == 17
  {
    assert EndTime(Current, segs, 0) == 6;
    assert EndTime(Current, segs, 1) == 12;
    assert EndTime(Current, segs, 2) == 17;
  }

  /** The mock transcript therefore converts to those three cues. */
  lemma SampleTranscriptCues()
    ensures |Cues(Current, SampleTranscript)| == 3
    ensures Cues(Current, SampleTranscript)[0].start == 2 && Cues(Current, SampleTranscript)[0].end == 6
    ensures Cues(Current, SampleTranscript)[1].start == 6 && Cues(Current, SampleTranscript)[1].end == 12
    ensures Cues(Current, SampleTranscript)[2].start == 12 && Cues(Current, SampleTranscript)[2].end == 17
  {
    var segs := SampleTranscript;
    assert segs[0].timestamp == "00:02" && segs[1].timestamp == "00:06" && segs[2].timestamp == "00:12";
    SampleStarts();
    CuesOfSampleStarts(segs);
  }

  /** A timing line depends only on the cue's interval. */
  lemma TimingLineOfInterval(rev: Revision, c: Cue, d: Cue)
    requires c.start == d.start && c.end == d.end
    ensures TimingLine(rev, c) == TimingLine(rev, d)
  {
  }

  /** The timing lines of the mock transcript's cues. */
  lemma SampleTimingLines()
    ensures |Cues(Current, SampleTranscript)| == 3
    ensures TimingLine(Current, Cues(Current, SampleTranscript)[0]) == "00:00:02,000" + " --> " + "00:00:06,000"
    ensures TimingLine(Current, Cues(Current, SampleTranscript)[1]) == "00:00:06,000" + " --> " + "00:00:12,000"
    ensures TimingLine(Current, Cues(Current, SampleTranscript)[2]) == "00:00:12,000" + " --> " + "00:00:17,000"
  {
    var cues := Cues(Current, SampleTranscript);
    SampleTranscriptCues();
    SmallTimes();
    TimingLineOfInterval(Current, cues[0], Cue(1, 2, 6, ""));
    TimingLineOfInterval(Current, cues[1], Cue(2, 6, 12, ""));
    TimingLineOfInterval(Current, cues[2], Cue(3, 12, 17, ""));
  }

  /** Four numeric pieces are read on the first two: `01:02:03:04` is 62 seconds. */
  lemma FourPieceTimestamp()
    ensures ParseTimestamp("01:02:03:04") == 62
  {
    ReadTwoDigits('0', '1');
    ReadTwoDigits('0', '2');
    ReadTwoDigits('0', '3');
    ReadTwoDigits('0', '4');
    assert Split("03:04", ':') == ["03", "04"] by {
      assert "03:04" == "03" + [':'] + "04";
      SplitTwo("03", "04", ':');
    }
    assert "01:02:03:04" == "01" + ":" + "02" + ":" + "03:04";
    ParseExtraPiecesIgnored("01", "02", "03:04");
  }

  /** `01:02:03` is 3723 seconds to the current revision and 0 to the legacy one. */
  lemma HoursTimestamp()
    ensures ParseTimestamp("01:02:03") == 3723 && ParseTimestampLegacy("01:02:03") == 0
  {
    ReadTwoDigits('0', '1');
    ReadTwoDigits('0', '2');
    ReadTwoDigits('0', '3');
    assert "01:02:03" == "01" + ":" + "02" + ":" + "03";
    ParseHoursMinutesSeconds("01", "02", "03");
  }

  /** A piece that is not a number: `1:xx` is 0 to both revisions. */
  lemma NonNumericTimestamp()
    ensures ParseTimestamp("1:xx") == 0 && ParseTimestampLegacy("1:xx") == 0
  {
    assert Split("1:xx", ':') == ["1", "xx"] by {
      assert "1:xx" == "1" + [':'] + "xx";
      SplitTwo("1", "xx", ':');
    }
    assert !IsDigit('x');
    ParseNonNumericPiece("1:xx", 1);
  }
}

=== FILE: strings.dfy ===
/** The JavaScript string built-ins the application relies on, restricted to
    the way it calls them: `split` and `join` with a one-character
    separator, `toString` of a natural number, `padStart` with a
    one-character fill, `lastIndexOf` of one character and `toLowerCase`
    on ASCII letters. */
module Strings {

  /* ---------- decimal digits ---------- */

  predicate IsDigit(c: char) {
    '0' <= c <= '9'
  }

  predicate IsDigits(s: string) {
    forall i :: 0 <= i < |s| ==> IsDigit(s[i])
  }

  function DigitValue(c: char): nat
    requires IsDigit(c)
  {
    c as int - '0' as int
  }

  function DigitChar(d: nat): (c: char)
    requires d < 10
    ensures IsDigit(c) && DigitValue(c) == d
  {
    ('0' as int + d) as char
  }

  /** A digit string holds no character other than digits. */
  lemma DigitsExclude(s: string, c: char)
    requires IsDigits(s) && !IsDigit(c)
    ensures c !in s
  {
    forall k | 0 <= k < |s|
      ensures s[k] != c
    {
      assert IsDigit(s[k]);
    }
  }

  /** The number a string of decimal digits denotes, most significant digit
      first; the empty string denotes 0, as `Number('')` does. */
  function DigitsValue(s: string): nat
    requires IsDigits(s)
  {
    if |s| == 0 then 0 else 10 * DigitsValue(s[..|s| - 1]) + DigitValue(s[|s| - 1])
  }

  /** `n.toString()` for a natural number: its shortest decimal rendering. */
  function Dec(n: nat): (s: string)
    ensures 1 <= |s| && IsDigits(s)
    ensures n < 10 <==> |s| == 1
  {
    if n < 10 then [DigitChar(n)] else Dec(n / 10) + [DigitChar(n % 10)]
  }

  /** Reading back the rendering of `n` gives `n`. */
  lemma {:induction false} DecValue(n: nat)
    ensures DigitsValue(Dec(n)) == n
  {
    if n >= 10 {
      var s := Dec(n);
      assert s[..|s| - 1] == Dec(n / 10);
      DecValue(n / 10);
    }
  }

  /** The rendering has no redundant leading zero: it is the only digit
      string without one that denotes `n`. */
  lemma {:induction false} DecCanonical(s: string)
    requires 1 <= |s| && IsDigits(s)
    requires |s| == 1 || s[0] != '0'
    ensures Dec(DigitsValue(s)) == s
  {
    if |s| > 1 {
      var init := s[..|s| - 1];
      assert init[0] == s[0];
      DecCanonical(init);
      NoLeadingZeroPositive(init);
      var n := DigitsValue(s);
      assert n / 10 == DigitsValue(init) && n % 10 == DigitValue(s[|s| - 1]);
      assert [DigitChar(n % 10)] == [s[|s| - 1]];
    }
  }

  lemma {:induction false} NoLeadingZeroPositive(s: string)
    requires 1 <= |s| && IsDigits(s) && s[0] != '0'
    ensures DigitsValue(s) >= 1
  {
    if |s| > 1 {
      var init := s[..|s| - 1];
      assert init[0] == s[0];
      NoLeadingZeroPositive(init);
    }
  }

  /** A leading '0' does not change the value of a digit string. */
  lemma {:induction false} LeadingZeroValue(s: string)
    requires IsDigits(s)
    ensures IsDigits(['0'] + s) && DigitsValue(['0'] + s) == DigitsValue(s)
  {
    var z := ['0'] + s;
    if |s| > 0 {
      assert z[..|z| - 1] == ['0'] + s[..|s| - 1];
      LeadingZeroValue(s[..|s| - 1]);
    }
  }

  /* ---------- padStart ---------- */

  /** `s.padStart(width, fill)`: `fill` repeated in front of `s` until it is
      `width` long; a string already that long is returned as it is. */
  function PadStart(s: string, width: nat, fill: char): (r: string)
    ensures |r| == if |s| < width then width else |s|
    decreases width - |s|
  {
    if width <= |s| then s else PadStart([fill] + s, width, fill)
  }

  /** Padding reaches the width, keeps `s` as its suffix and puts only the
      fill character in front of it. */
  lemma {:induction false} PadStartShape(s: string, width: nat, fill: char)
    ensures |PadStart(s, width, fill)| == if |s| < width then width else |s|
    ensures PadStart(s, width, fill)[|PadStart(s, width, fill)| - |s|..] == s
    ensures forall i :: 0 <= i < |PadStart(s, width, fill)| - |s| ==> PadStart(s, width, fill)[i] == fill
    decreases width - |s|
  {
    if |s| < width {
      var r := PadStart([fill] + s, width, fill);
      PadStartShape([fill] + s, width, fill);
      assert r[|r| - |s|..] == ([fill] + s)[1..];
    }
  }

  /** Zero-padding keeps a digit string a digit string denoting the same number. */
  lemma {:induction false} PadZerosValue(s: string, width: nat)
    requires IsDigits(s)
    ensures IsDigits(PadStart(s, width, '0'))
    ensures DigitsValue(PadStart(s, width, '0')) == DigitsValue(s)
    decreases width - |s|
  {
    if |s| < width {
      LeadingZeroValue(s);
      PadZerosValue(['0'] + s, width);
    }
  }

  /* ---------- split and join ---------- */

  /** `s.split(sep)` for a one-character separator: the maximal
      separator-free pieces between separators, always at least one. */
  function Split(s: string, sep: char): (parts: seq<string>)
    ensures |parts| >= 1
    decreases |s|
  {
    if |s| == 0 then [""] else ConsChar(s[0], Split(s[1..], sep), sep)
  }

  /** Puts one character in front of the pieces of the rest of a string: a
      separator starts a new, empty first piece, any other character joins
      the first piece. */
  function ConsChar(c: char, rest: seq<string>, sep: char): (parts: seq<string>)
    requires |rest| >= 1
    ensures |parts| >= 1
  {
    if c == sep then [""] + rest else [[c] + rest[0]] + rest[1..]
  }

  /** Putting a character in front only touches the first piece, so it
      commutes with appending pieces at the end. */
  lemma ConsCharAppend(c: char, front: seq<string>, back: seq<string>, sep: char)
    requires |front| >= 1
    ensures ConsChar(c, front + back, sep) == ConsChar(c, front, sep) + back
  {
    if c != sep {
      assert (front + back)[0] == front[0] && (front + back)[1..] == front[1..] + back;
    }
  }

  /** `parts.join(sep)` for a non-empty array. */
  function Join(parts: seq<string>, sep: char): (s: string)
    requires |parts| >= 1
    ensures |s| >= |parts[0]|
    decreases |parts|
  {
    if |parts| == 1 then parts[0] else parts[0] + [sep] + Join(parts[1..], sep)
  }

  /** No piece holds the separator. */
  lemma {:induction false} SplitPiecesLackSeparator(s: string, sep: char)
    ensures forall i :: 0 <= i < |Split(s, sep)| ==> sep !in Split(s, sep)[i]
    decreases |s|
  {
    if |s| > 0 {
      SplitPiecesLackSeparator(s[1..], sep);
    }
  }

  /** The last piece of `s.split(sep)`, which `Array.prototype.pop` returns. */
  function LastPart(s: string, sep: char): string {
    var parts := Split(s, sep);
    parts[|parts| - 1]
  }

  /** Joining the pieces restores the string. */
  lemma {:induction false} JoinSplit(s: string, sep: char)
    ensures Join(Split(s, sep), sep) == s
    decreases |s|
  {
    if |s| > 0 {
      var rest := Split(s[1..], sep);
      JoinSplit(s[1..], sep);
      if s[0] != sep && |rest| > 1 {
        assert Split(s, sep)[1..] == rest[1..];
      }
    }
  }

  /** A separator-free string is its own single piece. */
  lemma {:induction false} SplitNoSeparator(s: string, sep: char)
    requires sep !in s
    ensures Split(s, sep) == [s]
    decreases |s|
  {
    if |s| > 0 {
      assert sep !in s[1..];
      SplitNoSeparator(s[1..], sep);
      assert [s[0]] + s[1..] == s;
    }
  }

  /** One step of the split. */
  lemma SplitConsChar(c: char, t: string, sep: char)
    ensures Split([c] + t, sep) == ConsChar(c, Split(t, sep), sep)
  {
    var s := [c] + t;
    assert s[0] == c && s[1..] == t;
  }

  /** Splitting distributes over a separator placed between two strings. */
  lemma {:induction false} SplitAround(a: string, b: string, sep: char)
    ensures Split(a + [sep] + b, sep) == Split(a, sep) + Split(b, sep)
    decreases |a|
  {
    if |a| == 0 {
      assert a + [sep] + b == [sep] + b;
      SplitConsChar(sep, b, sep);
    } else {
      var c, t := a[0], a[1..] + [sep] + b;
      assert a + [sep] + b == [c] + t;
      assert a == [c] + a[1..];
      SplitConsChar(c, t, sep);
      SplitConsChar(c, a[1..], sep);
      SplitAround(a[1..], b, sep);
      ConsCharAppend(c, Split(a[1..], sep), Split(b, sep), sep);
    }
  }

  /** Splitting the joined pieces gives the pieces back, when none of them
      holds the separator. */
  lemma {:induction false} SplitJoin(parts: seq<string>, sep: char)
    requires |parts| >= 1
    requires forall i :: 0 <= i < |parts| ==> sep !in parts[i]
    ensures Split(Join(parts, sep), sep) == parts
    decreases |parts|
  {
    SplitNoSeparator(parts[0], sep);
    if |parts| > 1 {
      SplitJoin(parts[1..], sep);
      SplitAround(parts[0], Join(parts[1..], sep), sep);
      assert parts == [parts[0]] + parts[1..];
    }
  }

  /** Two separator-free strings around one separator split into those two. */
  lemma SplitTwo(a: string, b: string, sep: char)
    requires sep !in a && sep !in b
    ensures Split(a + [sep] + b, sep) == [a, b]
  {
    SplitAround(a, b, sep);
    SplitNoSeparator(a, sep);
    SplitNoSeparator(b, sep);
  }

  /** Three separator-free strings joined by two separators split into those three. */
  lemma SplitThree(a: string, b: string, c: string, sep: char)
    requires sep !in a && sep !in b && sep !in c
    ensures Split(a + [sep] + b + [sep] + c, sep) == [a, b, c]
  {
    assert a + [sep] + b + [sep] + c == a + [sep] + (b + [sep] + c);
    SplitAround(a, b + [sep] + c, sep);
    SplitTwo(b, c, sep);
    SplitNoSeparator(a, sep);
  }

  /** Two separator-free leading pieces come off the front of the split. */
  lemma SplitTwoThenRest(a: string, b: string, tail: string, sep: char)
    requires sep !in a && sep !in b
    ensures Split(a + [sep] + b + [sep] + tail, sep) == [a, b] + Split(tail, sep)
  {
    assert a + [sep] + b + [sep] + tail == a + [sep] + (b + [sep] + tail);
    SplitAround(a, b + [sep] + tail, sep);
    SplitAround(b, tail, sep);
    SplitNoSeparator(a, sep);
    SplitNoSeparator(b, sep);
  }

  /** Three separator-free strings, each followed by a separator, split
      into those three and a final empty piece. */
  lemma SplitThreeTerminated(a: string, b: string, c: string, sep: char)
    requires sep !in a && sep !in b && sep !in c
    ensures Split(a + [sep] + b + [sep] + c + [sep], sep) == [a, b, c, ""]
  {
    assert a + [sep] + b + [sep] + c + [sep] == a + [sep] + b + [sep] + (c + [sep] + "");
    SplitTwoThenRest(a, b, c + [sep] + "", sep);
    SplitTwo(c, "", sep);
  }

  /* ---------- lastIndexOf ---------- */

  /** `s.lastIndexOf(c)`: the position of the last `c`, or -1 when there is none. */
  function LastIndexOf(s: string, c: char): (k: int)
    ensures -1 <= k < |s|
    ensures k >= 0 ==> s[k] == c
    ensures forall j :: k < j < |s| ==> s[j] != c
    decreases |s|
  {
    if |s| == 0 then -1
    else if s[|s| - 1] == c then |s| - 1
    else LastIndexOf(s[..|s| - 1], c)
  }

  /** The piece `pop()` takes off `s.split(c)` is the text after the last `c`
      (all of `s` when it has no `c`). */
  lemma LastPartAfterLastIndex(s: string, c: char)
    ensures LastPart(s, c) == s[LastIndexOf(s, c) + 1..]
  {
    var k := LastIndexOf(s, c);
    if k == -1 {
      assert c !in s;
      SplitNoSeparator(s, c);
    } else {
      assert c !in s[k + 1..];
      assert s == s[..k] + [c] + s[k + 1..];
      SplitAround(s[..k], s[k + 1..], c);
      SplitNoSeparator(s[k + 1..], c);
    }
  }

  /* ---------- toLowerCase ---------- */

  function LowerChar(c: char): char {
    if 'A' <= c <= 'Z' then (c as int + 32) as char else c
  }

  /** `s.toLowerCase()` on the ASCII letters; other characters are kept. */
  function AsciiLower(s: string): (r: string)
    ensures |r| == |s|
  {
    seq(|s|, i requires 0 <= i < |s| => LowerChar(s[i]))
  }

  /** Lower-casing changes a character exactly when it is an upper-case
      ASCII letter. */
  lemma AsciiLowerChangesOnlyUpperCase(s: string)
    ensures forall i :: 0 <= i < |s| ==> (AsciiLower(s)[i] == s[i] <==> !('A' <= s[i] <= 'Z'))
  {
  }

  /** Exactly the four spellings of "m4a" in upper and lower case lower to "m4a". */
  lemma AsciiLowerIsM4a(s: string)
    ensures AsciiLower(s) == "m4a" <==>
              |s| == 3 && (s[0] == 'm' || s[0] == 'M') && s[1] == '4' && (s[2] == 'a' || s[2] == 'A')
  {
    var low := AsciiLower(s);
    if low == "m4a" {
      assert low[0] == 'm' && low[1] == '4' && low[2] == 'a';
      assert LowerChar(s[0]) == 'm' && LowerChar(s[1]) == '4' && LowerChar(s[2]) == 'a';
    }
  }
}
